=== FILE: README.md ===
# Tabby settings sync over WebDAV, in Dafny

This project models the core of a Tabby terminal plugin that keeps the
terminal's settings and stored SSH passwords on a WebDAV server. The
plugin has three layers, and the model follows them module by module:

- **The Go sync tool.**
  - `WebDavServer` is the remote store: directories of named entries, plus a set of requests the server refuses.
  - `WebDavClient` is `sync-tool/pkg/webdav/client.go`: `Get`, `Sync`, `Delete` and `NewClient`.
  - `SyncTool` is `sync-tool/cmd/main.go`: the credential guard, the token splitter, and the `get`, `sync` and `delete` subcommands.
- **The plugin's backend** (`src/gist/WebDAV.ts`) is the `Bridge` module. It splits the user's token, fills in the directory argument, runs the tool, and turns the tool's reply into a promise result.
- **The settings component** (`src/components/SettingsTab.component.ts`).
  - `SettingsTab` is `sync(isUploading)`:
    - the guards;
    - the upload of the settings without their `syncConfig`, plus the password bundle;
    - the download, which puts the pre-sync `syncConfig` back;
    - the `config.yaml` over `config.json` precedence;
    - the success-only `lastSyncTime`;
    - the `finally` block.
  - `Passwords` covers collecting and saving the password bundle.
  - `DateFormat` is the template-based timestamp formatter.
  - `Values` holds the few JavaScript semantics these rely on: falsiness, `||`, property reads that throw on `null`, and `== "3"`.

Several things the code talks to are inputs to the model:
- the server, including which requests fail;
- the clock, both the Unix seconds the tool uses and the calendar reading `dateFormat` formats;
- the password store, as a `load` oracle and a `save` oracle;
- the YAML and JSON codecs, as function values in `SettingsTab.Codec`.

Each top-level operation takes the store and returns the new store.

The headline results:
- `WebDavClient.SyncThenGet`: a push followed by a read gives back every pushed name with its last content.
- `WebDavClient.WriteAllStopsAtFirstFailure`: a failed push stopped at its first failed write.
- `WebDavClient.DeleteThenGet` and `WebDavClient.DeleteIdempotent`: what a delete leaves behind.
- `Bridge.ParsersDisagreeOnTwoColons` and `Bridge.BadTokenRejectedByTool`: the plugin's token parser and the tool's disagree, and a token whose password would contain a colon is always refused.
- `SettingsTab.UploadThenDownload` and `SettingsTab.SyncRoundTrip`: an upload followed by a download restores the same settings and password records. The download keeps the local `syncConfig`, with the adopted directory.
- `DateFormat.FormatReadsBack`: the `lastSyncTime` stamp reads back as the clock's fields.

The tests mention base64-encoded tokens (`test/token.ts:20-21`, and the `isBase64` helper that `test/WebDAV.ts:178-184` calls). But neither `parseCredentials` (`src/gist/WebDAV.ts:25-31`) nor `parseToken` (`sync-tool/cmd/main.go:152-158`) decodes anything, so the model follows the code.

## Model

| member | source | states |
|---|---|---|
| WebDavServer.MkdirAll | sync-tool/pkg/webdav/client.go:79-83 | creating the push directory succeeds unless the server refuses it; an existing directory keeps its children, and nothing else changes |
| WebDavServer.Write | sync-tool/pkg/webdav/client.go:86-91 | a file write fails when refused or when the name is a sub-collection; on success only that name of that directory changes, and names stay unique |
| WebDavServer.Upsert | sync-tool/pkg/webdav/client.go:88 | overwriting a file puts the new file under its name and leaves every other name's lookup as it was |
| WebDavServer.Remove | sync-tool/pkg/webdav/client.go:118-122 | removing a file drops exactly the entries with that name, or fails when refused |
| WebDavServer.RemoveDir | sync-tool/pkg/webdav/client.go:125-128 | removing a directory drops it and nothing else, or fails when refused |
| WebDavServer.LookupUnique | sync-tool/pkg/webdav/client.go:58 | in a directory without duplicate names, reading a listed file finds that very entry |
| WebDavClient.NewClient | sync-tool/pkg/webdav/client.go:26-35 | the client keeps the credentials, and its URL is the given one with every trailing slash removed and no others |
| WebDavClient.ReadFiles | sync-tool/pkg/webdav/client.go:52-67 | the loop returns exactly the listed file entries whose read succeeds, each with the content read; sub-collections and unreadable files are skipped |
| WebDavClient.ReadFilesAppend | sync-tool/pkg/webdav/client.go:53-67 | the read loop goes entry by entry, so the result keeps listing order and one entry's outcome does not affect another's |
| WebDavClient.Get | sync-tool/pkg/webdav/client.go:37-70 | an empty name reads "tabby-config"; a missing directory gives an empty list, a refused listing an error, and otherwise one entry per readable listed file, in listing order, and exactly those files |
| WebDavClient.GetContents | sync-tool/pkg/webdav/client.go:52-67 | in a well-formed store, a file is in the result exactly when it is listed and its read is not refused |
| WebDavClient.LastWins | sync-tool/pkg/webdav/client.go:86-92 | the contents a push leaves behind are keyed by exactly the pushed names |
| WebDavClient.LastWinsIsLast | sync-tool/pkg/webdav/client.go:86-92 | a pushed name ends up with the content of its last occurrence in the push |
| WebDavClient.LastWinsFrom | sync-tool/pkg/webdav/client.go:86-92 | every name a push leaves holds the content of some pushed file of that name |
| WebDavClient.WriteAll | sync-tool/pkg/webdav/client.go:85-92 | after all writes succeed, each pushed name looks up its last pushed content and every other name is unchanged; on failure the error names a pushed file; no other directory changes |
| WebDavClient.Sync | sync-tool/pkg/webdav/client.go:72-95 | a successful push reports the directory it used and leaves it holding the pushed names' last contents beside its other files; a failure is either a failed mkdir that changed nothing or a failed write; other directories never change |
| WebDavClient.SyncNaming | sync-tool/pkg/webdav/client.go:75-77 | a push without a directory writes to "tabby-config-" followed by the clock's seconds in decimal, which read back as the clock; a named push uses the name |
| WebDavClient.AutoNamesDistinct | sync-tool/pkg/webdav/client.go:76 | pushes without a directory at different seconds use different directories |
| WebDavClient.WriteAllStopsAtFirstFailure | sync-tool/pkg/webdav/client.go:86-91 | a failed push wrote the files before some index k and then failed to write file k; the store is what those earlier writes produced, and the error names file k |
| WebDavClient.SyncThenGet | sync-tool/pkg/webdav/client.go:37-95 | after a successful push, reading the directory succeeds and yields every pushed name with its last content and no other content under those names, provided the listing and those reads are served |
| WebDavClient.RemoveFiles | sync-tool/pkg/webdav/client.go:113-123 | the removal loop never fails and never touches another directory; the directory only loses entries |
| WebDavClient.Delete | sync-tool/pkg/webdav/client.go:97-131 | an empty name is refused; a missing directory counts as removed; failed file removals are ignored; the call succeeds exactly when the listing and the final directory removal are served, and then the directory is gone |
| WebDavClient.DeleteThenGet | sync-tool/pkg/webdav/client.go:97-131 | after a successful delete, reading the directory gives an empty list |
| WebDavClient.DeleteIdempotent | sync-tool/pkg/webdav/client.go:104-109 | deleting again after a successful delete succeeds and changes nothing |
| SyncTool.ValidateCredentials | sync-tool/cmd/main.go:141-149 | the guard passes exactly when the URL, username and password are all non-empty; a missing URL is reported first |
| SyncTool.ParseToken | sync-tool/cmd/main.go:152-158 | the token splits at its first colon, so the user part has no colon and the token is the user, a colon and the rest; without a colon the password is empty |
| SyncTool.ParseTokenRoundTrip | sync-tool/cmd/main.go:152-156 | a colon-free user joined by a colon to any rest, colons included, splits back into the user and that rest |
| SyncTool.RunGet | sync-tool/cmd/main.go:67-87 | `get` exits with the guard's error when the flags fail it; otherwise it prints success with the client's files exactly when the client's read succeeds |
| SyncTool.RunSync | sync-tool/cmd/main.go:89-116 | `sync` leaves the store untouched when the guard fails; otherwise the store is the client's push result, and it prints success with exactly the directory the client used |
| SyncTool.RunDelete | sync-tool/cmd/main.go:118-139 | `delete` fails without touching the store when the guard fails or no directory is given; otherwise the store is the client's delete result, and it prints success exactly when that delete succeeds |
| SyncTool.GuardsPrecedeClient | sync-tool/cmd/main.go:67-139 | a run that fails the guard, or a delete without a directory, behaves the same whatever the store holds and leaves the store as it was |
| Text.TrimRight | sync-tool/pkg/webdav/client.go:30 | trimming leaves a prefix that does not end in the character, and everything cut off was that character |
| Text.Split | src/gist/WebDAV.ts:26 | splitting on a character gives one more part than there are separators; no part holds the separator, and joining the parts gives the string back |
| Text.Decimal | sync-tool/pkg/webdav/client.go:76 | the decimal rendering is digits without a leading zero whose value is the number |
| Text.DecimalInjective | sync-tool/pkg/webdav/client.go:76 | different numbers render differently |
| Bridge.ParseCredentials | src/gist/WebDAV.ts:25-31 | a token with exactly one colon splits into the colon-free text before it and after it; any other token is the username with an empty password |
| Bridge.ParseCredentialsRoundTrip | src/gist/WebDAV.ts:26-29 | a colon-free username and password joined by one colon parse back to themselves |
| Bridge.ParsersAgreeOnOneColon | src/gist/WebDAV.ts:26-29 | on a token with one colon, the plugin's parser and the tool's splitter give the same pair |
| Bridge.ParsersDisagreeOnTwoColons | src/gist/WebDAV.ts:26-30 | on "a:b:c" the plugin keeps the whole token as the username with no password, while the tool's splitter gives "a" and "b:c" |
| Bridge.BadTokenRejectedByTool | src/gist/WebDAV.ts:25-31 | a token without exactly one colon, or ending in its only colon, yields an empty password, so the tool's guard refuses every run built from it |
| Bridge.GetArgs | src/gist/WebDAV.ts:40-46 | `get` always passes a directory: the given one, or "tabby-config" when it is empty |
| Bridge.Observe | src/gist/WebDAV.ts:48-53 | the callback sees a process error exactly when the tool exited with an error, and otherwise the printed reply |
| Bridge.ToMap | src/gist/WebDAV.ts:61-64 | the result map has exactly the reply's file names as keys, each mapped to a file of that name whose content is the last one listed under it |
| Bridge.LastWinsSnoc | src/gist/WebDAV.ts:62-64 | adding one more file makes it the winner for its name and leaves the other names alone |
| Bridge.ToMapKeepsLast | src/gist/WebDAV.ts:61-64 | a name repeated in the reply keeps the content of its last occurrence |
| Bridge.GetResult | src/gist/WebDAV.ts:48-69 | `get` resolves exactly when the tool printed a reply reporting success, to the map of its files (empty when `files` is absent); otherwise it rejects, with the tool's failure, an unsuccessful reply or an unreadable one |
| Bridge.SyncResult | src/gist/WebDAV.ts:90-106 | `sync` resolves exactly when the tool reported success, to the reported directory |
| Bridge.DelResult | src/gist/WebDAV.ts:131-143 | `del` resolves to whatever `success` the tool reported whenever it printed a reply |
| Bridge.ToToolFiles | src/gist/WebDAV.ts:88 | the tool receives the plugin's files in the same order, with the same names and contents |
| Bridge.Get | src/gist/WebDAV.ts:36-71 | the plugin's `get` resolves exactly when the tool accepts the parsed credentials and the client's read succeeds, to the map built from the files read |
| Bridge.Sync | src/gist/WebDAV.ts:76-114 | the plugin's `sync` changes the store exactly as the client's push does when the credentials pass, and not at all otherwise; it resolves exactly when that push succeeds, to the directory used |
| Bridge.Del | src/gist/WebDAV.ts:119-145 | `del` changes the store exactly as the client's delete does when the credentials pass and a directory is named, and not at all otherwise; it resolves to true exactly when the credentials pass and that delete succeeds, and never resolves to false |
| Bridge.DelThenGet | src/gist/WebDAV.ts:36-145 | after `del` resolves to true, `get` of the same directory resolves to an empty map |
| Bridge.DirectoryDefaulting | src/gist/WebDAV.ts:45-85 | `get` with no directory reads "tabby-config", while `sync` with none lands in a fresh "tabby-config-" directory named by the clock |
| Values.Or | src/components/SettingsTab.component.ts:150 | `v \|\| fallback` is the fallback for a falsy value and the value itself otherwise |
| Values.Prop | src/components/SettingsTab.component.ts:148 | reading a property throws exactly on `null`, and a value read is the object's field |
| Passwords.KeyRoundTrip | src/components/SettingsTab.component.ts:164-165 | building the `{host, port, user}` key and destructuring it again gives back the same parts |
| Passwords.IsPasswordSshProfile | src/components/SettingsTab.component.ts:148 | a profile is kept exactly when its type is 'ssh', its options are an object and their auth is 'password'; the filter throws exactly on a `null` profile, or on an 'ssh' profile whose options are `null` |
| Passwords.ProfileDefaults | src/components/SettingsTab.component.ts:148-151 | a kept profile keeps its host, and gets port 22 and user "root" exactly when its own are falsy |
| Passwords.SshProfiles | src/components/SettingsTab.component.ts:148-151 | filtering fails exactly when the filter throws on some profile; otherwise the connections are exactly the mapped kept profiles |
| Passwords.SshProfilesAppend | src/components/SettingsTab.component.ts:148-151 | the filter and map go profile by profile: filtering a concatenation gives the concatenated results, so the profiles' order is kept |
| Passwords.SshProfilesOne | src/components/SettingsTab.component.ts:148-151 | a single profile becomes its one connection when the filter keeps it and nothing when it does not; with the order lemma, this fixes the result in order and multiplicity |
| Passwords.Candidates | src/components/SettingsTab.component.ts:146-154 | with version "3" and an array `profiles`, the candidates are the filtered profiles; otherwise reading `ssh.connections` fails exactly when `ssh` is missing or `null`, and a non-array gives none |
| Passwords.Collect | src/components/SettingsTab.component.ts:161-177 | the bundle holds exactly the records `{host, port, user, auth: {password, encryptType: 'NONE'}}` of connections that are not `null` and whose password loads non-empty, one per such connection in the order the connections were listed |
| Passwords.CollectAppend | src/components/SettingsTab.component.ts:162-177 | collection goes connection by connection and keeps their order |
| Passwords.CollectSkips | src/components/SettingsTab.component.ts:163-176 | a connection that is `null`, whose load throws or whose password is empty only drops itself |
| Passwords.GatherInfos | src/components/SettingsTab.component.ts:141-184 | the collection never settles exactly when reading the store throws; otherwise the records are exactly those of the candidate connections that are not `null` and whose password loads non-empty, one per such connection in the order the connections were listed |
| Passwords.SaveAll | src/components/SettingsTab.component.ts:131-137 | the records stored are exactly the given records whose save returns normally |
| Passwords.Restore | src/components/SettingsTab.component.ts:129-139 | an empty list stores nothing; otherwise exactly the records whose save returns normally are stored |
| Passwords.RestoreIsolates | src/components/SettingsTab.component.ts:131-137 | a record whose save throws neither stops nor changes the saving of the records around it |
| Passwords.SaveAllAppend | src/components/SettingsTab.component.ts:131-137 | saving goes record by record and keeps their order |
| DateFormat.NumberText | src/components/SettingsTab.component.ts:41 | a number's string form is non-empty and is its decimal rendering when it is not negative |
| DateFormat.Substr | src/components/SettingsTab.component.ts:41-44 | `substr` takes the suffix from the start index, counting a negative start from the end |
| DateFormat.Match | src/components/SettingsTab.component.ts:40-43 | the pattern matches exactly when the letter occurs; the match starts at the letter's first occurrence and covers only copies of it |
| DateFormat.YearStep | src/components/SettingsTab.component.ts:40-41 | the year step replaces the four `y`s with the whole year text |
| DateFormat.TableSteps | src/components/SettingsTab.component.ts:42-44 | the table fills month, day, hours, minutes and seconds in turn, two digits each, and the quarter and millisecond entries find nothing to replace |
| DateFormat.Format | src/components/SettingsTab.component.ts:29-46 | `dateFormat` of a valid reading is the year as written, then month (from 1), day, hours, minutes and seconds as two digits, joined by "-", "-", " ", ":", ":", for every year |
| DateFormat.FormatLayout | src/components/SettingsTab.component.ts:40-44 | the year step followed by the placeholder table produces that layout |
| DateFormat.Pad2Digits | src/components/SettingsTab.component.ts:44 | the two-character padding is digits whose value is the number |
| DateFormat.LayoutReadsBack | src/components/SettingsTab.component.ts:29-46 | the layout of a reading with a four-digit year is 19 characters whose fields read back as the reading's |
| DateFormat.FormatReadsBack | src/components/SettingsTab.component.ts:29-46 | for a four-digit year the stamp is 19 characters with the separators in place, and each field reads back as the clock's year, month (from 1), day, hours, minutes and seconds |
| SettingsTab.StoreWithoutSyncConfig | src/components/SettingsTab.component.ts:73-76 | removing `syncConfig` from the store gives back the rest of the settings, and the store's `syncConfig` is the section |
| SettingsTab.Release | src/components/SettingsTab.component.ts:117-121 | the `finally` block clears only this direction's flag and counts one save |
| SettingsTab.UploadFiles | src/components/SettingsTab.component.ts:71-82 | an upload pushes two files, `config.yaml` then `ssh.auth.json`; the first is the settings dumped without their `syncConfig` key, and the second is the stringified bundle |
| SettingsTab.Upload | src/components/SettingsTab.component.ts:70-84 | an upload never touches the document or passwords; it stalls exactly when the collection never settles; once finished it clears its flag and saves; on success it changes only `gist` and `lastSyncTime` |
| SettingsTab.ConfigSource | src/components/SettingsTab.component.ts:90-100 | `config.yaml` is read when fetched, `config.json` only when it is not, and nothing when neither is |
| SettingsTab.Adopt | src/components/SettingsTab.component.ts:91-93 | writing a fetched document succeeds exactly when it loads as an object, and its `syncConfig` is replaced by the pre-sync snapshot |
| SettingsTab.RestoreBundle | src/components/SettingsTab.component.ts:102-104 | without `ssh.auth.json` nothing is saved; with it, the step fails exactly when the bundle does not parse, and otherwise the saved records are those `Restore` stores |
| SettingsTab.ApplyFetched | src/components/SettingsTab.component.ts:88-104 | the download writes the chosen settings file under the snapshot, stops at a document that fails to load, and then saves the bundle; it goes through exactly when the chosen document (if any) loads as an object and the bundle (if fetched) parses; without a bundle the passwords stay as they were |
| SettingsTab.Download | src/components/SettingsTab.component.ts:86-121 | a download never writes to the server; it always finishes, clears its flag and saves, keeps the section apart from `lastSyncTime`, and stamps the time only on success; a failed fetch ends unsuccessfully with the document and passwords unchanged |
| SettingsTab.Sync | src/components/SettingsTab.component.ts:49-123 | an empty token, or a download with no directory, changes nothing; past the guards the direction's flag is cleared and the config saved; `lastSyncTime` changes only on success and is then the formatted clock; a download never writes to the server; an upload keeps the document; the document never gains `syncConfig` |
| SettingsTab.DefaultsRejected | src/config.ts:4-11 | from the section's defaults both directions stop at the token guard and change nothing |
| SettingsTab.AcceptedForAnyDir | src/gist/WebDAV.ts:25-31 | a section whose URL is set and whose token splits into a non-empty user and password passes the tool's guard, whatever the directory |
| SettingsTab.UploadPushes | src/components/SettingsTab.component.ts:71-84 | an upload pushes exactly `config.yaml` (the settings without `syncConfig`) and then `ssh.auth.json` (the bundle) into the configured directory; it succeeds exactly when that push does, and then adopts the directory used |
| SettingsTab.DownloadPrecedence | src/components/SettingsTab.component.ts:90-100 | the document becomes the loaded `config.yaml` when present, else the loaded `config.json`, and stays as it was when neither is fetched |
| SettingsTab.ReadBack | src/components/SettingsTab.component.ts:88 | after a successful push, the plugin's `get` of that directory maps each pushed name to its pushed content, provided the listing and that read are served |
| SettingsTab.UploadedNames | src/components/SettingsTab.component.ts:79-82 | the two uploaded names are distinct, so each keeps its own content |
| SettingsTab.DownloadBoth | src/components/SettingsTab.component.ts:86-112 | fetching a loadable `config.yaml` and a parsable bundle adopts both under the snapshot, stamps the time, clears the flag and saves |
| SettingsTab.DownloadPushed | src/components/SettingsTab.component.ts:86-112 | downloading from the directory of a successful push of the two files restores the pushed settings and saves the pushed records |
| SettingsTab.UploadThenDownload | src/components/SettingsTab.component.ts:70-112 | after a successful upload, a download from the same server, with codecs that read back what was written, succeeds, restores the same settings, saves the uploaded records and keeps the section with the adopted directory |
| SettingsTab.SyncRoundTrip | src/components/SettingsTab.component.ts:49-123 | the same round trip through `sync(true)` and then `sync(false)`, each stamped with its own clock |

## Left out

- Process plumbing is not modelled: spawning the tool, the JSON framing on its standard input and output, and the command-line wiring. The tool's reply is its three keys, `success`, `files` and `directory`. A reply the plugin cannot parse is the `Stdout(None)` case.
- A `sync` whose standard input fails to decode is not modelled. The plugin always writes a JSON array of files there.
- Go encodes an empty, nil file list as `null`. The plugin's `files || []` reads that the same as an empty list, so the model does not distinguish the two.
- The HTTP requests themselves are not modelled, nor the gowebdav client that issues them. The server is an abstract store, and every request it does not refuse succeeds.
- The "404"/"Not Found" message matching is the `NotFound` failure: a listing of a directory that does not exist.
- `path.Join` normalisation is not modelled. Names and directories are plain strings without separators.
- The contents of nested collections are not modelled.
- `NewClient`'s trimmed URL is stored but, as in the code, never used by the operations; the gowebdav client gets the URL untrimmed. The subcommands therefore call the client operations directly, without building a `Client` value.
- YAML and JSON are function values in `Codec`. The round trip takes as a precondition that the download's loaders read back what the upload's dumpers wrote.
- `readRaw` followed by `yaml.load` on upload is modelled as the in-memory settings plus their `syncConfig`. The document written on download is the loaded object; `writeRaw` reloading its own dump is taken to give that object back.
- A fetched document that loads as something other than an object is lumped with a load that throws: the exchange fails. This covers `null`, scalars and arrays. An array would in fact take the `syncConfig` property.
- A fetched bundle that is not an array is lumped with a bundle that does not parse: the exchange fails.
- The password store is an oracle. `load` says whether `loadPassword` throws or which password it returns; `save` says whether `savePassword` returns normally.
- Clock reads are inputs: `time.Now().Unix()` in the tool and `new Date` in the component.
- `SettingsTab.Sync`: a `getSSHPluginAllPasswordInfos` promise that never settles is the `Stalled` ending. The upload flag stays set and no save happens. Nothing later is modelled.
- The component's `isUploading`/`isDownloading` flags do not prevent a second sync from starting. Concurrency and promise interleaving are not modelled.
- `src/gist/Gist.ts` is not part of this model. `GistFile` is taken to carry a `name` and a `content`, as `src/gist/WebDAV.ts:63` builds it and `SettingsTab.component.ts` reads it. The tests read a `.value` field instead (`test/WebDAV.ts:49-51,117-118`); that field is not modelled.
- `Bridge.SyncResult`: a successful reply without `directory` resolves to "" here, where `resolve(result.directory)` would give `undefined`. The case cannot arise, because the tool prints `directory` on every success (`sync-tool/cmd/main.go:108-111`).
- `DateFormat.Format`: the regular-expression engine is modelled by its effect on this template, which is the first run of the letter and replacement at that run. Time zones and `Date`'s getters are not modelled.
- `DateFormat.FormatReadsBack` speaks only of years from 1000 to 9999. `DateFormat.Format` gives the layout for every year.
- The toasts, `console.error`, `viewGist` (which opens a browser) and the Angular lifecycle are not modelled.
- The tests' `buildUrl`, `parsePropfind` and `isBase64` helpers are not modelled. No source file defines them.

=== FILE: bridge.dfy ===
/**
  The plugin's WebDAV backend (`src/gist/WebDAV.ts`): it splits the user's
  token into a username and password, runs the sync tool with the matching
  flags, and turns the tool's reply into a promise result. The tool run is the
  `SyncTool` model applied to the same store; what the callback observes of it
  is a `Completion`.
 */
module Bridge {
  import opened Wrappers
  import opened Text
  import opened WebDavServer
  import opened WebDavClient
  import opened SyncTool

  /** The plugin's file value: a name and its text. */
  datatype GistFile = GistFile(name: string, content: string)

  datatype Credentials = Credentials(username: string, password: string)

  /** What the `execFile` callback sees: a failed process, or standard output that is a reply or not JSON at all. */
  datatype Completion = ProcessError | Stdout(json: Option<Reply>)

  /** Why a promise rejects: the tool failed, it reported `success` false, or its output was unreadable. */
  datatype BridgeError = ToolFailed | Unsuccessful | InvalidResponse

  /**
    `parseCredentials`: a token with exactly one colon splits around it; any
    other token becomes the username with an empty password. Never fails.
   */
  function ParseCredentials(token: string): (c: Credentials)
    ensures Count(token, ':') == 1 ==> ':' !in c.username && ':' !in c.password && token == c.username + ":" + c.password
    ensures Count(token, ':') != 1 ==> c == Credentials(token, "")
  {
    var parts := Split(token, ':');
    if |parts| == 2 then
      assert Join(parts[1..], ':') == parts[1];
      Credentials(parts[0], parts[1])
    else Credentials(token, "")
  }

  /** A colon followed by colon-free text splits off exactly that text. */
  lemma ColonSplitUnique(a: string, b: string, c: string, d: string)
    requires ':' !in a && ':' !in c
    requires a + ":" + b == c + ":" + d
    ensures a == c && b == d
  {
    var t := a + ":" + b;
    IndexOfAfter(a, ':', b);
    IndexOfAfter(c, ':', d);
    assert a == t[..|a|] == c;
    assert b == t[|a| + 1..] == d;
  }

  /** Round trip: joining a colon-free user and password with one colon and parsing gives them back. */
  lemma ParseCredentialsRoundTrip(user: string, password: string)
    requires ':' !in user && ':' !in password
    ensures ParseCredentials(user + ":" + password) == Credentials(user, password)
  {
    var t := user + ":" + password;
    CountAbsent(user, ':');
    CountAbsent(password, ':');
    CountAppend(user, ":", ':');
    CountAppend(user + ":", password, ':');
    assert Count(":", ':') == 1;
    var c := ParseCredentials(t);
    ColonSplitUnique(c.username, c.password, user, password);
  }

  /** On a token with exactly one colon the plugin's and the tool's parsers agree. */
  lemma ParsersAgreeOnOneColon(token: string)
    requires Count(token, ':') == 1
    ensures ParseToken(token) == (ParseCredentials(token).username, ParseCredentials(token).password)
  {
    var c := ParseCredentials(token);
    CountAbsent(token, ':');
    var (u, p) := ParseToken(token);
    ColonSplitUnique(u, p, c.username, c.password);
  }

  /** With two colons they disagree: the plugin keeps the whole token as the user, the tool cuts at the first colon. */
  lemma ParsersDisagreeOnTwoColons()
    ensures ParseCredentials("a:b:c") == Credentials("a:b:c", "")
    ensures ParseToken("a:b:c") == ("a", "b:c")
  {
    assert Count("a:b:c", ':') == 2 by {
      assert "a:b:c"[1..] == ":b:c";
      assert ":b:c"[1..] == "b:c";
      assert "b:c"[1..] == ":c";
      assert ":c"[1..] == "c";
    }
    ParseTokenRoundTrip("a", "b:c");
    assert "a" + ":" + "b:c" == "a:b:c";
  }

  /**
    The flags the plugin passes to every subcommand: `--url`, then `--username`
    and `--password` from the parsed token, then `--dir`. Used only to state
    the contracts of `Get`, `Sync` and `Del`.
   */
  function ToolArgs(token: string, baseUrl: string, directory: string): Args {
    var c := ParseCredentials(token);
    Args(baseUrl, c.username, c.password, directory)
  }

  /**
    Cross-file: a token without exactly one colon, or one whose only colon ends
    it, yields an empty password, so the tool refuses every subcommand built from it.
   */
  lemma BadTokenRejectedByTool(token: string, baseUrl: string, directory: string)
    requires Count(token, ':') != 1 || (Count(token, ':') == 1 && token[|token| - 1] == ':')
    ensures ToolArgs(token, baseUrl, directory).password == ""
    ensures ValidateCredentials(ToolArgs(token, baseUrl, directory)).Fail?
  {
  }

  /** `get` names the default directory itself when it is given none. */
  function GetArgs(token: string, baseUrl: string, directory: string): (a: Args)
    ensures a.directory != ""
    ensures directory != "" ==> a.directory == directory
    ensures a == ToolArgs(token, baseUrl, GetDir(directory))
  {
    ToolArgs(token, baseUrl, if directory == "" then DefaultDir else directory)
  }

  /** The tool's reply as the `execFile` callback receives it. */
  function Observe(r: Run): (c: Completion)
    ensures c.ProcessError? <==> r.Exited?
    ensures r.Printed? ==> c == Stdout(Some(r.reply))
  {
    match r
    case Exited(_) => ProcessError
    case Printed(reply) => Stdout(Some(reply))
  }

  /**
    The loop that fills the result map: each file is stored under its name, so
    for a repeated name the last file wins.
   */
  function ToMap(files: seq<File>): (m: map<string, GistFile>)
    ensures m.Keys == LastWins(files).Keys
    ensures forall n :: n in m ==> m[n] == GistFile(n, LastWins(files)[n])
  {
    if |files| == 0 then map[]
    else
      var last := files[|files| - 1];
      var init := files[..|files| - 1];
      assert files == init + [last];
      LastWinsSnoc(init, last);
      ToMap(init)[last.name := GistFile(last.name, last.content)]
  }

  /** Appending a file to a push makes it the winner for its name. */
  lemma {:induction false} LastWinsSnoc(files: seq<File>, f: File)
    ensures LastWins(files + [f]) == LastWins(files)[f.name := f.content]
  {
    if |files| > 0 {
      var h := files[0];
      assert (files + [f])[0] == h && (files + [f])[1..] == files[1..] + [f];
      calc {
        LastWins(files + [f]);
        map[h.name := h.content] + LastWins(files[1..] + [f]);
        { LastWinsSnoc(files[1..], f); }
        map[h.name := h.content] + LastWins(files[1..])[f.name := f.content];
        (map[h.name := h.content] + LastWins(files[1..]))[f.name := f.content];
      }
    } else {
      assert files + [f] == [f];
    }
  }

  /** A repeated name keeps the content of its last occurrence. */
  lemma ToMapKeepsLast(files: seq<File>, i: nat)
    requires i < |files|
    requires forall j :: i < j < |files| ==> files[j].name != files[i].name
    ensures files[i].name in ToMap(files)
    ensures ToMap(files)[files[i].name] == GistFile(files[i].name, files[i].content)
  {
    LastWinsIsLast(files, i);
  }

  /** The `get` callback: reject unless the tool reported success; a missing `files` key is an empty map. */
  function GetResult(c: Completion): (r: Result<map<string, GistFile>, BridgeError>)
    ensures r.Success? <==> c.Stdout? && c.json.Some? && c.json.value.success
    ensures r.Success? ==> r.value == ToMap(c.json.value.files.GetOr([]))
    ensures c.Stdout? && c.json.Some? && c.json.value.success && c.json.value.files.None? ==> r == Success(map[])
    ensures r.Failure? ==> r.error == (if c.ProcessError? then ToolFailed else if c.json.None? then InvalidResponse else Unsuccessful)
  {
    match c
    case ProcessError => Failure(ToolFailed)
    case Stdout(None) => Failure(InvalidResponse)
    case Stdout(Some(reply)) =>
      if !reply.success then Failure(Unsuccessful)
      else Success(ToMap(reply.files.GetOr([])))
  }

  /**
    The `sync` callback: reject unless the tool reported success; otherwise
    resolve to the reported directory. A successful reply always carries
    `directory`, so the "" for a missing one is never produced.
   */
  function SyncResult(c: Completion): (r: Result<string, BridgeError>)
    ensures r.Success? <==> c.Stdout? && c.json.Some? && c.json.value.success
    ensures r.Success? ==> r.value == c.json.value.directory.GetOr("")
  {
    match c
    case ProcessError => Failure(ToolFailed)
    case Stdout(None) => Failure(InvalidResponse)
    case Stdout(Some(reply)) =>
      if !reply.success then Failure(Unsuccessful)
      else Success(reply.directory.GetOr(""))
  }

  /** The `del` callback: resolve to whatever `success` the tool reported, false included. */
  function DelResult(c: Completion): (r: Result<bool, BridgeError>)
    ensures r.Success? <==> c.Stdout? && c.json.Some?
    ensures r.Success? ==> r.value == c.json.value.success
  {
    match c
    case ProcessError => Failure(ToolFailed)
    case Stdout(None) => Failure(InvalidResponse)
    case Stdout(Some(reply)) => Success(reply.success)
  }

  /** The hand-off of the plugin's files to the tool's standard input. */
  function ToToolFiles(files: seq<GistFile>): (r: seq<File>)
    ensures |r| == |files|
    ensures forall i :: 0 <= i < |files| ==> r[i] == File(files[i].name, files[i].content)
  {
    if |files| == 0 then [] else [File(files[0].name, files[0].content)] + ToToolFiles(files[1..])
  }

  /** `WebDAV.get`: the files of `directory` (the default one when empty), keyed by name. */
  function Get(token: string, baseUrl: string, directory: string, s: Server): (r: Result<map<string, GistFile>, BridgeError>)
    ensures r.Success? <==> ValidateCredentials(GetArgs(token, baseUrl, directory)).Pass? && WebDavClient.Get(s, directory).Success?
    ensures r.Success? ==> r.value == ToMap(WebDavClient.Get(s, directory).value)
  {
    GetResult(Observe(RunGet(GetArgs(token, baseUrl, directory), s)))
  }

  /** `WebDAV.sync`: push the files to `directory`, passing an empty one through so the tool names it. */
  function Sync(token: string, baseUrl: string, directory: string, files: seq<GistFile>, s: Server, now: nat): (r: (Server, Result<string, BridgeError>))
    ensures ValidateCredentials(ToolArgs(token, baseUrl, directory)).Pass? ==>
      r.0 == WebDavClient.Sync(s, directory, ToToolFiles(files), now).0
    ensures ValidateCredentials(ToolArgs(token, baseUrl, directory)).Fail? ==> r.0 == s
    ensures r.1.Success? <==>
      ValidateCredentials(ToolArgs(token, baseUrl, directory)).Pass? && WebDavClient.Sync(s, directory, ToToolFiles(files), now).1.Success?
    ensures r.1.Success? ==> r.1.value == SyncDir(directory, now)
  {
    var (s', run) := RunSync(ToolArgs(token, baseUrl, directory), s, ToToolFiles(files), now);
    (s', SyncResult(Observe(run)))
  }

  /** `WebDAV.del`: remove `directory`, resolving to the reported success. */
  function Del(token: string, baseUrl: string, directory: string, s: Server): (r: (Server, Result<bool, BridgeError>))
    ensures r.1 == Success(true) <==> ValidateCredentials(ToolArgs(token, baseUrl, directory)).Pass? && WebDavClient.Delete(s, directory).1.Pass?
    ensures r.1 != Success(false)
    ensures ValidateCredentials(ToolArgs(token, baseUrl, directory)).Pass? && directory != "" ==>
      r.0 == WebDavClient.Delete(s, directory).0
    ensures ValidateCredentials(ToolArgs(token, baseUrl, directory)).Fail? || directory == "" ==> r.0 == s
  {
    var (s', run) := RunDelete(ToolArgs(token, baseUrl, directory), s);
    (s', DelResult(Observe(run)))
  }

  /** After `del` resolves to true, `get` of the same directory resolves to an empty map. */
  lemma DelThenGet(token: string, baseUrl: string, directory: string, s: Server)
    requires Del(token, baseUrl, directory, s).1 == Success(true)
    ensures Get(token, baseUrl, directory, Del(token, baseUrl, directory, s).0) == Success(map[])
  {
    WebDavClient.DeleteThenGet(s, directory);
    assert GetArgs(token, baseUrl, directory) == ToolArgs(token, baseUrl, directory);
  }

  /** The default directory is filled in by the plugin for `get` only; `sync` with none gets a fresh name. */
  lemma DirectoryDefaulting(token: string, baseUrl: string, files: seq<GistFile>, s: Server, now: nat)
    ensures Get(token, baseUrl, "", s) == Get(token, baseUrl, DefaultDir, s)
    ensures Sync(token, baseUrl, "", files, s, now).1.Success? ==>
      Sync(token, baseUrl, "", files, s, now).1.value == AutoDirPrefix + Decimal(now)
  {
  }
}

=== FILE: date_format.dfy ===
/**
  The settings component's `dateFormat`, which stamps `lastSyncTime`. It fills
  the template "yyyy-MM-dd HH:mm:ss" the way the source does: the first run of
  `y` becomes the year, then each entry of a fixed table (`M+`, `d+`, `H+`,
  `m+`, `s+`, `q+`, `S`) replaces the first run of its letter with the number,
  left-padded to two digits when the run is longer than one letter. The clock
  reading is an input.
 */
module DateFormat {
  import opened Wrappers
  import opened Text

  /** A local calendar reading as `Date`'s getters return it; `month` counts from 0. */
  datatype DateTime = DateTime(year: int, month: nat, day: nat, hours: nat, minutes: nat, seconds: nat, millis: nat)

  predicate ValidDate(d: DateTime) {
    d.month < 12 && 1 <= d.day <= 31 && d.hours < 24 && d.minutes < 60 && d.seconds < 60 && d.millis < 1000
  }

  const Template: string := "yyyy-MM-dd HH:mm:ss"

  /** `n + ""`: the decimal rendering of an integer, with a minus sign when negative. */
  function NumberText(n: int): (r: string)
    ensures n >= 0 ==> r == Decimal(n)
    ensures 1 <= |r|
  {
    if n < 0 then "-" + Decimal(-n) else Decimal(n)
  }

  /** `s.substr(start)`: a negative start counts from the end, clamped at 0; past the end gives "". */
  function Substr(s: string, start: int): (r: string)
    ensures 0 <= start <= |s| ==> r == s[start..]
    ensures start < 0 ==> r == s[if |s| + start < 0 then 0 else |s| + start..]
  {
    var from := if start < 0 then (if |s| + start < 0 then 0 else |s| + start) else start;
    if from >= |s| then "" else s[from..]
  }

  /** The number of leading copies of `c` in `s`. */
  function RunLength(s: string, c: char): (n: nat)
    ensures n <= |s|
    ensures forall k :: 0 <= k < n ==> s[k] == c
    ensures n == |s| || s[n] != c
  {
    if |s| > 0 && s[0] == c then 1 + RunLength(s[1..], c) else 0
  }

  /** The first match of `(c+)` (or `(c)` when `run` is false) in `s`: where it starts and how long it is. */
  function Match(s: string, c: char, run: bool): (r: Option<(nat, nat)>)
    ensures r.None? <==> c !in s
    ensures r.Some? ==> 1 <= r.value.1 && r.value.0 + r.value.1 <= |s| && c !in s[..r.value.0]
    ensures r.Some? ==> forall k :: r.value.0 <= k < r.value.0 + r.value.1 ==> s[k] == c
  {
    match IndexOf(s, c)
    case None => None
    case Some(i) => Some((i, if run then RunLength(s[i..], c) else 1))
  }

  /** `fmt.replace(m, text)` where `m` is the match at `at` of length `len`, which is also the first occurrence of its text. */
  function Replace(s: string, at: nat, len: nat, text: string): (r: string)
    requires at + len <= |s|
    ensures |r| == |s| - len + |text|
  {
    s[..at] + text + s[at + len..]
  }

  /** One entry of the formatter's table: its letter, whether the pattern ends in `+`, and its number. */
  datatype Placeholder = Placeholder(letter: char, run: bool, value: int)

  /** The table, in its declaration order (which is the order `for … in` visits it). */
  function Placeholders(d: DateTime): seq<Placeholder> {
    [ Placeholder('M', true, d.month + 1), Placeholder('d', true, d.day), Placeholder('H', true, d.hours),
      Placeholder('m', true, d.minutes), Placeholder('s', true, d.seconds),
      Placeholder('q', true, (d.month + 3) / 3), Placeholder('S', false, d.millis) ]
  }

  /** The text a match of length `len` becomes: the bare number for one letter, else `("00" + v).substr(("" + v).length)`. */
  function Filled(len: nat, v: int): string {
    if len == 1 then NumberText(v) else Substr("00" + NumberText(v), |NumberText(v)|)
  }

  function ApplyPlaceholder(fmt: string, p: Placeholder): string {
    match Match(fmt, p.letter, p.run)
    case None => fmt
    case Some((at, len)) => Replace(fmt, at, len, Filled(len, p.value))
  }

  function ApplyAll(fmt: string, ps: seq<Placeholder>): string
    decreases |ps|
  {
    if |ps| == 0 then fmt else ApplyAll(ApplyPlaceholder(fmt, ps[0]), ps[1..])
  }

  /** The year step: the first run of `y` becomes `(year + "").substr(4 - run length)`. */
  function WithYear(d: DateTime): string {
    match Match(Template, 'y', true)
    case None => Template
    case Some((at, len)) => Replace(Template, at, len, Substr(NumberText(d.year), 4 - len))
  }

  /**
    `dateFormat(date)`: the year step, then the table. For a valid reading the
    stamp is the year as written, then month (from 1), day, hours, minutes and
    seconds as two digits each, joined by the template's separators.
   */
  function Format(d: DateTime): (r: string)
    ensures ValidDate(d) ==> r == Layout(NumberText(d.year), d.month + 1, d.day, d.hours, d.minutes, d.seconds)
  {
    if ValidDate(d) then FormatLayout(d); ApplyAll(WithYear(d), Placeholders(d))
    else ApplyAll(WithYear(d), Placeholders(d))
  }

  // ------------------------------------------------- the layout it produces

  /** Two digits for a number below one hundred, with a leading zero below ten. */
  function Pad2(n: nat): (r: string)
    requires n < 100
    ensures |r| == 2 && Plain(r)
  {
    DecimalLength(n);
    var r := if n < 10 then "0" + Decimal(n) else Decimal(n);
    assert n < 10 ==> r[..1] == "0";
    r
  }

  /** The characters the filled-in template is made of: digits and the separators `-`, ` ` and `:`. */
  predicate Plain(s: string) {
    forall i :: 0 <= i < |s| ==> IsDigit(s[i]) || s[i] == '-' || s[i] == ' ' || s[i] == ':'
  }

  /** The first run of `c` after a stretch without `c` is matched whole. */
  lemma MatchRun(x: string, c: char, run: string, rest: string)
    requires c !in x && 1 <= |run| && forall k :: 0 <= k < |run| ==> run[k] == c
    requires |rest| == 0 || rest[0] != c
    ensures Match(x + run + rest, c, true) == Some((|x|, |run|))
  {
    var s := x + run + rest;
    assert s == x + [c] + (run[1..] + rest);
    IndexOfAfter(x, c, run[1..] + rest);
    assert s[|x|..] == run + rest;
    var n := RunLength(run + rest, c);
    assert |run| < |run + rest| ==> (run + rest)[|run|] != c;
    assert forall k :: 0 <= k < |run| ==> (run + rest)[k] == c;
  }

  /** Filling a two-letter run with a number below one hundred gives its two-digit form. */
  lemma FilledPad2(v: nat)
    requires v < 100
    ensures Filled(2, v) == Pad2(v)
  {
    DecimalLength(v);
    var t := NumberText(v);
    assert ("00" + t)[|t|..] == if |t| == 1 then "0" + t else t;
  }

  /** One step of the table on `x + cc + rest`, where `x` is already plain. */
  lemma StepTwo(x: string, c: char, rest: string, v: nat)
    requires Plain(x) && '0' <= c && v < 100
    requires c != '-' && c != ' ' && c != ':' && !IsDigit(c)
    requires |rest| == 0 || rest[0] != c
    ensures ApplyPlaceholder(x + [c, c] + rest, Placeholder(c, true, v)) == x + Pad2(v) + rest
  {
    assert c !in x by {
      assert forall i :: 0 <= i < |x| ==> x[i] != c;
    }
    MatchRun(x, c, [c, c], rest);
    var s := x + [c, c] + rest;
    assert s[..|x|] == x;
    assert s[|x| + 2..] == rest;
    FilledPad2(v);
  }

  lemma PlainNoLetter(s: string, c: char)
    requires Plain(s) && c != '-' && c != ' ' && c != ':' && !IsDigit(c)
    ensures c !in s
  {
    assert forall i :: 0 <= i < |s| ==> s[i] != c;
  }

  lemma PlainAppend(a: string, b: string)
    requires Plain(a) && Plain(b)
    ensures Plain(a + b)
  {
    assert forall i :: |a| <= i < |a + b| ==> (a + b)[i] == b[i - |a|];
  }

  lemma NumberTextPlain(n: int)
    ensures Plain(NumberText(n))
  {
    if n < 0 {
      assert forall i :: 1 <= i < |NumberText(n)| ==> NumberText(n)[i] == Decimal(-n)[i - 1];
    }
  }

  /** The year pattern matches the template's leading `yyyy`. */
  lemma YearMatch()
    ensures Match(Template, 'y', true) == Some((0, 4))
  {
    assert Template == "" + "yyyy" + "-MM-dd HH:mm:ss";
    MatchRun("", 'y', "yyyy", "-MM-dd HH:mm:ss");
  }

  lemma YearReplace(y: string)
    ensures Replace(Template, 0, 4, y) == y + "-MM-dd HH:mm:ss"
  {
    assert Template[4..] == "-MM-dd HH:mm:ss";
  }

  /** The year step turns the template's `yyyy` into the year as written. */
  lemma YearStep(d: DateTime)
    ensures WithYear(d) == NumberText(d.year) + "-MM-dd HH:mm:ss"
  {
    YearMatch();
    YearReplace(NumberText(d.year));
  }

  /** Each remaining field is a two-letter run between separators. */
  lemma LayoutShape(y: string)
    ensures y + "-MM-dd HH:mm:ss" == (y + "-") + ['M', 'M'] + "-dd HH:mm:ss"
    ensures "-dd HH:mm:ss" == "-" + ['d', 'd'] + " HH:mm:ss"
    ensures " HH:mm:ss" == " " + ['H', 'H'] + ":mm:ss"
    ensures ":mm:ss" == ":" + ['m', 'm'] + ":ss"
    ensures ":ss" == ":" + ['s', 's'] + ""
  {
    assert "-MM-dd HH:mm:ss" == "-" + ['M', 'M'] + "-dd HH:mm:ss";
  }

  /** One filled field followed by the next separator: still plain, and the next run comes right after it. */
  lemma Advance(x: string, p: string, sep: string, c: char, rest: string)
    requires Plain(x) && Plain(p) && Plain(sep)
    ensures Plain(x + p + sep)
    ensures x + p + (sep + [c, c] + rest) == (x + p + sep) + [c, c] + rest
  {
    PlainAppend(x, p);
    PlainAppend(x + p, sep);
  }

  /** The first remaining table entry fills its two-letter run. */
  lemma StepAll(x: string, c: char, rest: string, v: nat, ps: seq<Placeholder>)
    requires Plain(x) && '0' <= c && v < 100
    requires c != '-' && c != ' ' && c != ':' && !IsDigit(c)
    requires |rest| == 0 || rest[0] != c
    requires |ps| > 0 && ps[0] == Placeholder(c, true, v)
    ensures ApplyAll(x + [c, c] + rest, ps) == ApplyAll(x + Pad2(v) + rest, ps[1..])
  {
    StepTwo(x, c, rest, v);
  }

  /** An entry whose letter does not occur leaves the text alone. */
  lemma SkipAll(f: string, ps: seq<Placeholder>)
    requires Plain(f) && |ps| > 0
    requires ps[0].letter != '-' && ps[0].letter != ' ' && ps[0].letter != ':' && !IsDigit(ps[0].letter)
    ensures ApplyAll(f, ps) == ApplyAll(f, ps[1..])
  {
    PlainNoLetter(f, ps[0].letter);
  }

  /** The stamp the template describes: the year, then month, day, hours, minutes and seconds as two digits each. */
  function Layout(y: string, mo: nat, day: nat, h: nat, mi: nat, sec: nat): string
    requires mo < 100 && day < 100 && h < 100 && mi < 100 && sec < 100
  {
    y + "-" + Pad2(mo) + "-" + Pad2(day) + " " + Pad2(h) + ":" + Pad2(mi) + ":" + Pad2(sec)
  }

  /** The two-letter entries each fill their own run; `q` and `S` then find nothing. */
  lemma {:induction false} TableSteps(y: string, mo: nat, day: nat, h: nat, mi: nat, sec: nat, ps: seq<Placeholder>)
    requires Plain(y) && mo < 100 && day < 100 && h < 100 && mi < 100 && sec < 100
    requires |ps| == 7
    requires ps[0] == Placeholder('M', true, mo) && ps[1] == Placeholder('d', true, day) && ps[2] == Placeholder('H', true, h)
    requires ps[3] == Placeholder('m', true, mi) && ps[4] == Placeholder('s', true, sec)
    requires ps[5].letter == 'q' && ps[6].letter == 'S'
    ensures ApplyAll(y + "-MM-dd HH:mm:ss", ps) == Layout(y, mo, day, h, mi, sec)
  {
    var x1 := y + "-";
    var x2 := x1 + Pad2(mo) + "-";
    var x3 := x2 + Pad2(day) + " ";
    var x4 := x3 + Pad2(h) + ":";
    var x5 := x4 + Pad2(mi) + ":";
    LayoutShape(y);
    PlainAppend(y, "-");
    Advance(x1, Pad2(mo), "-", 'd', " HH:mm:ss");
    Advance(x2, Pad2(day), " ", 'H', ":mm:ss");
    Advance(x3, Pad2(h), ":", 'm', ":ss");
    Advance(x4, Pad2(mi), ":", 's', "");
    calc {
      ApplyAll(y + "-MM-dd HH:mm:ss", ps);
      { StepAll(x1, 'M', "-dd HH:mm:ss", mo, ps); }
      ApplyAll(x1 + Pad2(mo) + "-dd HH:mm:ss", ps[1..]);
      { StepAll(x2, 'd', " HH:mm:ss", day, ps[1..]); assert ps[1..][1..] == ps[2..]; }
      ApplyAll(x2 + Pad2(day) + " HH:mm:ss", ps[2..]);
      { StepAll(x3, 'H', ":mm:ss", h, ps[2..]); assert ps[2..][1..] == ps[3..]; }
      ApplyAll(x3 + Pad2(h) + ":mm:ss", ps[3..]);
      { StepAll(x4, 'm', ":ss", mi, ps[3..]); assert ps[3..][1..] == ps[4..]; }
      ApplyAll(x4 + Pad2(mi) + ":ss", ps[4..]);
      { StepAll(x5, 's', "", sec, ps[4..]); assert ps[4..][1..] == ps[5..]; assert x5 + Pad2(sec) + "" == x5 + Pad2(sec); }
      ApplyAll(x5 + Pad2(sec), ps[5..]);
      { PlainAppend(x5, Pad2(sec)); SkipAll(x5 + Pad2(sec), ps[5..]); assert ps[5..][1..] == ps[6..]; }
      ApplyAll(x5 + Pad2(sec), ps[6..]);
      { PlainAppend(x5, Pad2(sec)); SkipAll(x5 + Pad2(sec), ps[6..]); assert ps[6..][1..] == []; }
      x5 + Pad2(sec);
    }
  }

  /**
    The template procedure yields the year as written, then the month (from
    1), day, hours, minutes and seconds as two digits each, with the
    template's separators; the quarter and millisecond entries find nothing.
   */
  lemma FormatLayout(d: DateTime)
    requires ValidDate(d)
    ensures ApplyAll(WithYear(d), Placeholders(d)) == Layout(NumberText(d.year), d.month + 1, d.day, d.hours, d.minutes, d.seconds)
  {
    var ps := Placeholders(d);
    assert |ps| == 7 && ps[5].letter == 'q' && ps[6].letter == 'S';
    assert ps[0] == Placeholder('M', true, d.month + 1) && ps[1] == Placeholder('d', true, d.day);
    assert ps[2] == Placeholder('H', true, d.hours) && ps[3] == Placeholder('m', true, d.minutes);
    assert ps[4] == Placeholder('s', true, d.seconds);
    YearStep(d);
    NumberTextPlain(d.year);
    TableSteps(NumberText(d.year), d.month + 1, d.day, d.hours, d.minutes, d.seconds, ps);
  }

  /** `Pad2` is the two-digit decimal form of its argument. */
  lemma Pad2Digits(n: nat)
    requires n < 100
    ensures AllDigits(Pad2(n)) && DigitsValue(Pad2(n)) == n
  {
    DecimalLength(n);
    if n < 10 {
      assert Pad2(n)[..1] == "0";
    }
  }

  /** Where each piece of a stamp with a four-character year sits. */
  lemma LayoutPieces(y: string, a: string, b: string, c: string, e: string, f: string)
    requires |y| == 4 && |a| == 2 && |b| == 2 && |c| == 2 && |e| == 2 && |f| == 2
    ensures var r := y + "-" + a + "-" + b + " " + c + ":" + e + ":" + f;
      && |r| == 19
      && r[4] == '-' && r[7] == '-' && r[10] == ' ' && r[13] == ':' && r[16] == ':'
      && r[..4] == y && r[5..7] == a && r[8..10] == b && r[11..13] == c && r[14..16] == e && r[17..19] == f
  {
    var r := y + "-" + a + "-" + b + " " + c + ":" + e + ":" + f;
    assert r[..4] == y;
    assert r[5..7] == a by { assert forall k :: 0 <= k < 2 ==> r[5 + k] == a[k]; }
    assert r[8..10] == b by { assert forall k :: 0 <= k < 2 ==> r[8 + k] == b[k]; }
    assert r[11..13] == c by { assert forall k :: 0 <= k < 2 ==> r[11 + k] == c[k]; }
    assert r[14..16] == e by { assert forall k :: 0 <= k < 2 ==> r[14 + k] == e[k]; }
    assert r[17..19] == f by { assert forall k :: 0 <= k < 2 ==> r[17 + k] == f[k]; }
  }

  /** The fields a stamp with a four-digit year is read back from: 19 characters, separators in place. */
  predicate ReadsBack(r: string, d: DateTime) {
    && |r| == 19
    && r[4] == '-' && r[7] == '-' && r[10] == ' ' && r[13] == ':' && r[16] == ':'
    && AllDigits(r[..4]) && DigitsValue(r[..4]) == d.year
    && AllDigits(r[5..7]) && DigitsValue(r[5..7]) == d.month + 1
    && AllDigits(r[8..10]) && DigitsValue(r[8..10]) == d.day
    && AllDigits(r[11..13]) && DigitsValue(r[11..13]) == d.hours
    && AllDigits(r[14..16]) && DigitsValue(r[14..16]) == d.minutes
    && AllDigits(r[17..19]) && DigitsValue(r[17..19]) == d.seconds
  }

  /** The layout of a valid reading with a four-digit year reads back as that reading. */
  lemma LayoutReadsBack(d: DateTime)
    requires ValidDate(d) && 1000 <= d.year <= 9999
    ensures ReadsBack(Layout(NumberText(d.year), d.month + 1, d.day, d.hours, d.minutes, d.seconds), d)
  {
    DecimalLength(d.year);
    LayoutPieces(NumberText(d.year), Pad2(d.month + 1), Pad2(d.day), Pad2(d.hours), Pad2(d.minutes), Pad2(d.seconds));
    Pad2Digits(d.month + 1);
    Pad2Digits(d.day);
    Pad2Digits(d.hours);
    Pad2Digits(d.minutes);
    Pad2Digits(d.seconds);
  }

  /** With a four-digit year the stamp is 19 characters whose fields read back as the reading's. */
  lemma FormatReadsBack(d: DateTime)
    requires ValidDate(d) && 1000 <= d.year <= 9999
    ensures var r := Format(d);
      && |r| == 19
      && r[4] == '-' && r[7] == '-' && r[10] == ' ' && r[13] == ':' && r[16] == ':'
      && AllDigits(r[..4]) && DigitsValue(r[..4]) == d.year
      && AllDigits(r[5..7]) && DigitsValue(r[5..7]) == d.month + 1
      && AllDigits(r[8..10]) && DigitsValue(r[8..10]) == d.day
      && AllDigits(r[11..13]) && DigitsValue(r[11..13]) == d.hours
      && AllDigits(r[14..16]) && DigitsValue(r[14..16]) == d.minutes
      && AllDigits(r[17..19]) && DigitsValue(r[17..19]) == d.seconds
  {
    LayoutReadsBack(d);
    assert ReadsBack(Format(d), d);
  }
}

=== FILE: passwords.dfy ===
/**
  The credential bundle of the settings component
  (`getSSHPluginAllPasswordInfos` and `saveSSHPluginAllPasswordInfos`):
  choosing the SSH connections that use password authentication, collecting
  their stored passwords into bundle records, and saving a fetched bundle back
  one record at a time. The password store is an oracle: `load` says what
  `loadPassword` does for a key, `save` whether `savePassword` returns normally
  for a record.
 */
module Passwords {
  import opened Wrappers
  import opened Values

  /** The `{host, port, user}` triple the password store is keyed by; a missing part is `undefined`. */
  datatype Key = Key(host: Option<Value>, port: Option<Value>, user: Option<Value>)

  /** The outcome of `loadPassword`: it threw, or it returned a password ("" for none). */
  datatype Loaded = Threw | Returned(password: string)

  const DefaultPort: Value := Num(22)
  const DefaultUser: Value := Str("root")

  /** The object literal `{host, port, user}`; keys whose value is `undefined` are left out, as JSON does. */
  function KeyFields(k: Key): map<string, Value> {
    var h := if k.host.Some? then map["host" := k.host.value] else map[];
    var p := if k.port.Some? then h["port" := k.port.value] else h;
    if k.user.Some? then p["user" := k.user.value] else p
  }

  /** Destructuring `const {host, port, user} = v` for a value that is not `null`. */
  function KeyOf(v: Value): Key {
    match v
    case Obj(m) => Key(Field(m, "host"), Field(m, "port"), Field(m, "user"))
    case _ => Key(None, None, None)
  }

  /** Building the literal and destructuring it again gives back the key. */
  lemma KeyRoundTrip(k: Key)
    ensures KeyOf(Obj(KeyFields(k))) == k
  {
  }

  // ------------------------------------------------- choosing connections

  /**
    The filter of the version-3 branch: `type === 'ssh'`, `typeof options ===
    "object"` and `options.auth === 'password'`, evaluated left to right; it
    throws when it reads a property of `null`.
   */
  function IsPasswordSshProfile(e: Value): (r: Result<bool, TypeError>)
    ensures r == Success(true) ==> e.Obj? && "options" in e.fields && e.fields["options"].Obj?
    ensures r == Success(true) <==>
      && e.Obj? && Field(e.fields, "type") == Some(Str("ssh"))
      && "options" in e.fields && e.fields["options"].Obj?
      && Field(e.fields["options"].fields, "auth") == Some(Str("password"))
    ensures r.Failure? <==> e.Null? || (e.Obj? && Field(e.fields, "type") == Some(Str("ssh")) && Field(e.fields, "options") == Some(Null))
  {
    match Prop(e, "type")
    case Failure(err) => Failure(err)
    case Success(t) =>
      if t != Some(Str("ssh")) then Success(false)
      else
        var o := Prop(e, "options").value;
        if !IsObjectType(o) then Success(false)
        else
          match Prop(o.value, "auth")
          case Failure(err) => Failure(err)
          case Success(a) => Success(a == Some(Str("password")))
  }

  /** The map of the version-3 branch: the profile's host, its port or 22, its user or "root". */
  function ProfileConnection(e: Value): Value
    requires IsPasswordSshProfile(e) == Success(true)
  {
    var m := e.fields["options"].fields;
    Obj(KeyFields(Key(Field(m, "host"), Some(Or(Field(m, "port"), DefaultPort)), Some(Or(Field(m, "user"), DefaultUser)))))
  }

  /** A kept profile keeps its host and gets port 22 and user "root" when those are falsy. */
  lemma ProfileDefaults(e: Value)
    requires IsPasswordSshProfile(e) == Success(true)
    ensures var m := e.fields["options"].fields; var k := KeyOf(ProfileConnection(e));
      && k.host == Field(m, "host")
      && k.port == Some(if Falsy(Field(m, "port")) then DefaultPort else m["port"])
      && k.user == Some(if Falsy(Field(m, "user")) then DefaultUser else m["user"])
  {
  }

  /** `profiles.filter(…).map(…)`: fails if the filter throws on any profile. */
  function SshProfiles(ps: seq<Value>): (r: Result<seq<Value>, TypeError>)
    ensures r.Failure? <==> exists i :: 0 <= i < |ps| && IsPasswordSshProfile(ps[i]).Failure?
    ensures r.Success? ==> |r.value| <= |ps|
    ensures r.Success? ==> forall c :: c in r.value <==>
      exists i :: 0 <= i < |ps| && IsPasswordSshProfile(ps[i]) == Success(true) && c == ProfileConnection(ps[i])
  {
    if |ps| == 0 then Success([])
    else
      assert forall i :: 1 <= i < |ps| ==> ps[i] == ps[1..][i - 1];
      match IsPasswordSshProfile(ps[0])
      case Failure(err) => Failure(err)
      case Success(keep) =>
        match SshProfiles(ps[1..])
        case Failure(err) => Failure(err)
        case Success(rest) =>
          if keep then Success([ProfileConnection(ps[0])] + rest) else Success(rest)
  }

  /** The filter and map keep the profiles' order: a split list filters part by part. */
  lemma {:induction false} SshProfilesAppend(a: seq<Value>, b: seq<Value>)
    requires SshProfiles(a).Success? && SshProfiles(b).Success?
    ensures SshProfiles(a + b) == Success(SshProfiles(a).value + SshProfiles(b).value)
  {
    if |a| > 0 {
      assert (a + b)[0] == a[0] && (a + b)[1..] == a[1..] + b;
      var keep := IsPasswordSshProfile(a[0]).value;
      assert IsPasswordSshProfile(a[0]) == Success(keep);
      SshProfilesAppend(a[1..], b);
      var tail := SshProfiles(a[1..]).value;
      var rest := SshProfiles(b).value;
      if keep {
        assert SshProfiles(a).value == [ProfileConnection(a[0])] + tail;
        assert [ProfileConnection(a[0])] + (tail + rest) == ([ProfileConnection(a[0])] + tail) + rest;
      }
    } else {
      assert a == [] && a + b == b;
      assert SshProfiles(a) == Success([]);
      assert SshProfiles(a).value + SshProfiles(b).value == SshProfiles(b).value;
    }
  }

  /** A single profile becomes its connection when kept and nothing when dropped. */
  lemma SshProfilesOne(p: Value)
    requires IsPasswordSshProfile(p).Success?
    ensures SshProfiles([p]) == if IsPasswordSshProfile(p).value then Success([ProfileConnection(p)]) else Success([])
  {
    var keep := IsPasswordSshProfile(p).value;
    assert IsPasswordSshProfile(p) == Success(keep);
    assert [p][1..] == [];
    assert SshProfiles([]) == Success([]);
    if keep {
      assert [ProfileConnection(p)] + [] == [ProfileConnection(p)];
    }
  }

  /**
    The connection list the collection starts from: the filtered profiles when
    `version == "3"` and `profiles` is an array, otherwise `ssh.connections`;
    anything that is not an array is an empty list. `Failure` is a TypeError
    thrown while reading the store.
   */
  function Candidates(store: map<string, Value>): (r: Result<seq<Value>, TypeError>)
    ensures LooselyEqualsThree(Field(store, "version")) && Field(store, "profiles").Some? && store["profiles"].Arr? ==>
      r == SshProfiles(store["profiles"].items)
    ensures !(LooselyEqualsThree(Field(store, "version")) && Field(store, "profiles").Some? && store["profiles"].Arr?) ==>
      (r.Failure? <==> Field(store, "ssh") == None || Field(store, "ssh") == Some(Null))
    ensures !(LooselyEqualsThree(Field(store, "version")) && Field(store, "profiles").Some? && store["profiles"].Arr?) && r.Success? ==>
      r.value == (if store["ssh"].Obj? && "connections" in store["ssh"].fields && store["ssh"].fields["connections"].Arr?
                  then store["ssh"].fields["connections"].items else [])
  {
    var profiles := Field(store, "profiles");
    if LooselyEqualsThree(Field(store, "version")) && profiles.Some? && profiles.value.Arr? then
      SshProfiles(profiles.value.items)
    else
      match Field(store, "ssh")
      case None => Failure(TypeError)
      case Some(ssh) =>
        match Prop(ssh, "connections")
        case Failure(err) => Failure(err)
        case Success(c) => if c.Some? && c.value.Arr? then Success(c.value.items) else Success([])
  }

  // ------------------------------------------------- collecting passwords

  /** The bundle record `{host, port, user, auth: {password, encryptType: 'NONE'}}`. */
  function Bundled(k: Key, password: string): Value {
    Obj(KeyFields(k)["auth" := Obj(map["password" := Str(password), "encryptType" := Str("NONE")])])
  }

  /** The loop keeps `conn` as record `v`: it is not `null`, its password loads and is not empty. */
  predicate Bundles(conn: Value, load: Key -> Loaded, v: Value) {
    && !conn.Null?
    && load(KeyOf(conn)).Returned?
    && load(KeyOf(conn)).password != ""
    && v == Bundled(KeyOf(conn), load(KeyOf(conn)).password)
  }

  /**
    The collection loop: a connection whose destructuring or password load
    throws, or whose password is empty, is skipped; the rest become bundle records.
   */
  function Collect(conns: seq<Value>, load: Key -> Loaded): (r: seq<Value>)
    ensures |r| <= |conns|
    ensures forall v :: v in r <==> exists i :: 0 <= i < |conns| && Bundles(conns[i], load, v)
  {
    if |conns| == 0 then []
    else
      var rest := Collect(conns[1..], load);
      var c := conns[0];
      assert forall i :: 1 <= i < |conns| ==> conns[i] == conns[1..][i - 1];
      if c.Null? then rest
      else
        match load(KeyOf(c))
        case Threw => rest
        case Returned(p) =>
          if p == "" then rest
          else
            assert forall v :: Bundles(c, load, v) <==> v == Bundled(KeyOf(c), p);
            [Bundled(KeyOf(c), p)] + rest
  }

  /** Collection goes connection by connection: one connection's failure does not affect the others', and order is kept. */
  lemma {:induction false} CollectAppend(a: seq<Value>, b: seq<Value>, load: Key -> Loaded)
    ensures Collect(a + b, load) == Collect(a, load) + Collect(b, load)
  {
    if |a| > 0 {
      assert (a + b)[1..] == a[1..] + b;
      CollectAppend(a[1..], b, load);
    } else {
      assert a + b == b;
    }
  }

  /** A connection that fails in the middle only drops itself. */
  lemma CollectSkips(a: seq<Value>, c: Value, b: seq<Value>, load: Key -> Loaded)
    requires c.Null? || load(KeyOf(c)) == Threw || load(KeyOf(c)) == Returned("")
    ensures Collect(a + [c] + b, load) == Collect(a, load) + Collect(b, load)
  {
    CollectAppend(a + [c], b, load);
    CollectAppend(a, [c], load);
    assert Collect([c], load) == [];
  }

  /**
    `getSSHPluginAllPasswordInfos`: the records of the candidate connections,
    or `None` when reading the store throws inside the promise executor, in
    which case the promise never settles.
   */
  function GatherInfos(store: map<string, Value>, load: Key -> Loaded): (r: Option<seq<Value>>)
    ensures r.None? <==> Candidates(store).Failure?
    ensures r.Some? ==> forall v :: v in r.value <==> exists c :: c in Candidates(store).value && Bundles(c, load, v)
    ensures r.Some? ==> r.value == Collect(Candidates(store).value, load)
  {
    match Candidates(store)
    case Failure(_) => None
    case Success(conns) =>
      // the early return for an empty list, kept although `Collect([])` is also empty
      if |conns| < 1 then Some([]) else Some(Collect(conns, load))
  }

  // ------------------------------------------------- restoring passwords

  /** The saving loop: every record is attempted in order; those whose save throws are skipped. */
  function SaveAll(conns: seq<Value>, save: Value -> bool): (saved: seq<Value>)
    ensures |saved| <= |conns|
    ensures forall v :: v in saved <==> v in conns && save(v)
  {
    if |conns| == 0 then []
    else
      var rest := SaveAll(conns[1..], save);
      assert forall v :: v in conns <==> v == conns[0] || v in conns[1..];
      if save(conns[0]) then [conns[0]] + rest else rest
  }

  /** `saveSSHPluginAllPasswordInfos`: nothing for an empty list, otherwise the saving loop; returns the records stored. */
  function Restore(conns: seq<Value>, save: Value -> bool): (saved: seq<Value>)
    ensures |conns| == 0 ==> saved == []
    ensures forall v :: v in saved <==> v in conns && save(v)
  {
    if |conns| < 1 then [] else SaveAll(conns, save)
  }

  /** Saving goes record by record: a record that fails to save does not stop or change the others. */
  lemma {:induction false} RestoreIsolates(a: seq<Value>, x: Value, b: seq<Value>, save: Value -> bool)
    requires !save(x)
    ensures Restore(a + [x] + b, save) == Restore(a, save) + Restore(b, save)
  {
    SaveAllAppend(a + [x], b, save);
    SaveAllAppend(a, [x], save);
    assert SaveAll([x], save) == [];
  }

  lemma {:induction false} SaveAllAppend(a: seq<Value>, b: seq<Value>, save: Value -> bool)
    ensures SaveAll(a + b, save) == SaveAll(a, save) + SaveAll(b, save)
  {
    if |a| > 0 {
      assert (a + b)[1..] == a[1..] + b;
      SaveAllAppend(a[1..], b, save);
    } else {
      assert a + b == b;
    }
  }
}

=== FILE: settings_tab.dfy ===
/**
  The settings component's `sync(isUploading)`: the guards on the plugin's
  `syncConfig`, the upload (settings without `syncConfig`, plus the password
  bundle) and the download (settings restored under the pre-sync
  `syncConfig`, then the bundle saved back), `lastSyncTime` stamped only on
  success, and the in-flight flag released and the config saved once past the
  guards. The YAML and JSON codecs, the password store, the server and the
  clock are inputs.
 */
module SettingsTab {
  import opened Wrappers
  import opened Values
  import WebDavServer
  import WebDavClient
  import SyncTool
  import Bridge
  import opened Passwords
  import opened DateFormat

  /** The plugin's own section of the config. */
  datatype SyncConfig = SyncConfig(baseUrl: string, token: string, gist: string, lastSyncTime: string)

  /** The section's defaults. */
  const DefaultSyncConfig: SyncConfig := SyncConfig("", "", "", "-")

  const ConfigYaml: string := "config.yaml"
  const ConfigJson: string := "config.json"
  const SshAuth: string := "ssh.auth.json"
  const SyncConfigKey: string := "syncConfig"

  /**
    The component's world: the config document apart from its `syncConfig`
    key, the `syncConfig` section, the two in-flight flags, how often the
    config has been saved, and the password records stored so far.
   */
  datatype Local = Local(
    doc: map<string, Value>,
    sync: SyncConfig,
    uploading: bool,
    downloading: bool,
    saves: nat,
    passwords: seq<Value>)

  /** The document never holds `syncConfig` itself: that key is the `sync` field. */
  predicate WellFormed(l: Local) {
    SyncConfigKey !in l.doc
  }

  function SyncConfigValue(c: SyncConfig): Value {
    Obj(map["baseUrl" := Str(c.baseUrl), "token" := Str(c.token), "gist" := Str(c.gist), "lastSyncTime" := Str(c.lastSyncTime)])
  }

  /** The whole config store, `syncConfig` included. */
  function Store(l: Local): map<string, Value> {
    l.doc[SyncConfigKey := SyncConfigValue(l.sync)]
  }

  /** Dropping `syncConfig` from the store gives back the document, which is what an upload pushes. */
  lemma StoreWithoutSyncConfig(l: Local)
    requires WellFormed(l)
    ensures Store(l) - {SyncConfigKey} == l.doc && l.doc - {SyncConfigKey} == l.doc
    ensures SyncConfigKey in Store(l) && Store(l)[SyncConfigKey] == SyncConfigValue(l.sync)
  {
  }

  /** `yaml.dump`, `yaml.load`, `JSON.stringify` and `JSON.parse` of a record list; `None` is a throw. */
  datatype Codec = Codec(
    dumpYaml: Value -> string,
    loadYaml: string -> Option<Value>,
    stringify: Value -> string,
    parseRecords: string -> Option<seq<Value>>)

  /** Everything outside the component a sync consults. */
  datatype Env = Env(
    server: WebDavServer.Server,
    unixNow: nat,
    clock: DateTime,
    codec: Codec,
    load: Key -> Loaded,
    save: Value -> bool)

  datatype Guard = MissingToken | MissingGist

  /**
    How a sync ends: stopped by a guard before anything happens, stalled
    because the password collection never settles, or finished (and whether
    the whole exchange succeeded).
   */
  datatype Ending = Rejected(guard: Guard) | Stalled | Finished(ok: bool)

  /** The `finally` block: release this direction's flag and save the config. */
  function Release(l: Local, isUploading: bool): (r: Local)
    ensures r.saves == l.saves + 1
    ensures isUploading ==> !r.uploading && r.downloading == l.downloading
    ensures !isUploading ==> !r.downloading && r.uploading == l.uploading
    ensures r.doc == l.doc && r.sync == l.sync && r.passwords == l.passwords
  {
    if isUploading then l.(uploading := false, saves := l.saves + 1)
    else l.(downloading := false, saves := l.saves + 1)
  }

  // ------------------------------------------------------------- upload

  /**
    The files an upload pushes, in this order: the settings, then the password
    bundle. The settings are dumped without their `syncConfig` key.
   */
  function UploadFiles(l: Local, infos: seq<Value>, codec: Codec): (r: seq<Bridge.GistFile>)
    ensures |r| == 2 && r[0].name == ConfigYaml && r[1].name == SshAuth
    ensures WellFormed(l) ==> r[0].content == codec.dumpYaml(Obj(l.doc))
    ensures r[1].content == codec.stringify(Arr(infos))
  {
    var files := [ Bridge.GistFile(ConfigYaml, codec.dumpYaml(Obj(Store(l) - {SyncConfigKey}))),
                   Bridge.GistFile(SshAuth, codec.stringify(Arr(infos))) ];
    if WellFormed(l) then StoreWithoutSyncConfig(l); files else files
  }

  /**
    The upload branch, with `stamp` the formatted time of the exchange: collect
    the bundle, push both files, and on success adopt the directory used.
   */
  function Upload(l: Local, env: Env, stamp: string): (r: (Local, WebDavServer.Server, Ending))
    ensures r.2 != Finished(true) ==> r.0.sync == l.sync
    ensures r.2 == Finished(true) ==> r.0.sync == l.sync.(gist := r.0.sync.gist, lastSyncTime := stamp)
    ensures r.2.Stalled? <==> GatherInfos(Store(l), env.load).None?
    ensures r.2.Stalled? ==> r.0 == l.(uploading := true) && r.1 == env.server
    ensures r.2.Finished? ==> r.0.saves == l.saves + 1 && !r.0.uploading
    ensures r.0.doc == l.doc && r.0.passwords == l.passwords && r.0.downloading == l.downloading
    ensures !r.2.Rejected?
  {
    var busy := l.(uploading := true);
    match GatherInfos(Store(l), env.load)
    case None => (busy, env.server, Stalled)
    case Some(infos) =>
      var (s', result) := Bridge.Sync(l.sync.token, l.sync.baseUrl, l.sync.gist, UploadFiles(l, infos, env.codec), env.server, env.unixNow);
      var done := if result.Success? then busy.(sync := busy.sync.(gist := result.value, lastSyncTime := stamp)) else busy;
      (Release(done, true), s', Finished(result.Success?))
  }

  // ----------------------------------------------------------- download

  /** Which fetched file holds the settings: `config.yaml`, else the legacy `config.json`, else none. */
  function ConfigSource(m: map<string, Bridge.GistFile>): (r: Option<string>)
    ensures ConfigYaml in m ==> r == Some(m[ConfigYaml].content)
    ensures ConfigYaml !in m && ConfigJson in m ==> r == Some(m[ConfigJson].content)
    ensures r.None? <==> ConfigYaml !in m && ConfigJson !in m
  {
    if ConfigYaml in m then Some(m[ConfigYaml].content)
    else if ConfigJson in m then Some(m[ConfigJson].content)
    else None
  }

  /**
    Writing a fetched document: its `syncConfig` is replaced by the snapshot.
    `None` when loading throws or the document is not an object, so the
    assignment to its `syncConfig` throws.
   */
  function Adopt(l: Local, text: string, snapshot: SyncConfig, codec: Codec): (r: Option<Local>)
    ensures r.Some? <==> codec.loadYaml(text).Some? && codec.loadYaml(text).value.Obj?
    ensures r.Some? ==> r.value == l.(doc := codec.loadYaml(text).value.fields - {SyncConfigKey}, sync := snapshot)
    ensures r.Some? ==> WellFormed(r.value)
  {
    match codec.loadYaml(text)
    case Some(Obj(fields)) => Some(l.(doc := fields - {SyncConfigKey}, sync := snapshot))
    case _ => None
  }

  /** Saving a fetched bundle back, if there is one; `None` when it does not parse as a record list. */
  function RestoreBundle(l: Local, m: map<string, Bridge.GistFile>, codec: Codec, save: Value -> bool): (r: Option<Local>)
    ensures SshAuth !in m ==> r == Some(l)
    ensures r.Some? ==> r.value == l.(passwords := r.value.passwords)
    ensures SshAuth in m ==> (r.None? <==> codec.parseRecords(m[SshAuth].content).None?)
    ensures SshAuth in m && r.Some? ==>
      r.value.passwords == l.passwords + Restore(codec.parseRecords(m[SshAuth].content).value, save)
  {
    if SshAuth !in m then Some(l)
    else
      match codec.parseRecords(m[SshAuth].content)
      case None => None
      case Some(conns) => Some(l.(passwords := l.passwords + Restore(conns, save)))
  }

  /**
    What a download does with the fetched files, before stamping: write the
    settings under the section as it was before the exchange, then save the
    bundle. The flag is whether both steps went through.
   */
  function ApplyFetched(l: Local, m: map<string, Bridge.GistFile>, env: Env): (r: (Local, bool))
    ensures r.0.sync == l.sync && r.0.uploading == l.uploading && r.0.downloading == l.downloading && r.0.saves == l.saves
    ensures ConfigSource(m).None? ==> r.0.doc == l.doc
    ensures ConfigSource(m).Some? && Adopt(l, ConfigSource(m).value, l.sync, env.codec).Some? ==>
      r.0.doc == Adopt(l, ConfigSource(m).value, l.sync, env.codec).value.doc
    ensures ConfigSource(m).Some? && Adopt(l, ConfigSource(m).value, l.sync, env.codec).None? ==> r == (l, false)
    ensures r.0.doc != l.doc ==> WellFormed(r.0)
    ensures r.1 && SshAuth in m ==>
      env.codec.parseRecords(m[SshAuth].content).Some? &&
      r.0.passwords == l.passwords + Restore(env.codec.parseRecords(m[SshAuth].content).value, env.save)
    ensures r.1 <==> (ConfigSource(m).None? || Adopt(l, ConfigSource(m).value, l.sync, env.codec).Some?) &&
                     (SshAuth !in m || env.codec.parseRecords(m[SshAuth].content).Some?)
    ensures SshAuth !in m ==> r.0.passwords == l.passwords
  {
    var written := match ConfigSource(m)
      case None => Some(l)
      case Some(text) => Adopt(l, text, l.sync, env.codec);
    match written
    case None => (l, false)
    case Some(l1) =>
      match RestoreBundle(l1, m, env.codec, env.save)
      case None => (l1, false)
      case Some(l2) => (l2, true)
  }

  /**
    The download branch, given what the fetch returned and the formatted time
    of the exchange: write the settings and the bundle, stamp the time on success.
   */
  function Download(l: Local, env: Env, fetched: Result<map<string, Bridge.GistFile>, Bridge.BridgeError>, stamp: string): (r: (Local, WebDavServer.Server, Ending))
    ensures r.1 == env.server
    ensures r.2.Finished? && r.0.saves == l.saves + 1 && !r.0.downloading && r.0.uploading == l.uploading
    ensures r.0.sync == l.sync.(lastSyncTime := r.0.sync.lastSyncTime)
    ensures r.2 == Finished(true) ==> r.0.sync.lastSyncTime == stamp
    ensures r.2 != Finished(true) ==> r.0.sync == l.sync
    ensures r.0.doc != l.doc ==> WellFormed(r.0)
    ensures fetched.Failure? ==> r.2 == Finished(false) && r.0.doc == l.doc && r.0.passwords == l.passwords
  {
    var busy := l.(downloading := true);
    match fetched
    case Failure(_) => (Release(busy, false), env.server, Finished(false))
    case Success(m) =>
      var (l1, ok) := ApplyFetched(busy, m, env);
      var stamped := if ok then l1.(sync := l1.sync.(lastSyncTime := stamp)) else l1;
      (Release(stamped, false), env.server, Finished(ok))
  }

  // --------------------------------------------------------------- sync

  /**
    `sync(isUploading)`. Without a token, or on a download without a
    directory, nothing happens at all. Otherwise the direction's flag is set,
    and once the exchange finishes it is cleared and the config saved, whether
    or not the exchange succeeded; `lastSyncTime` changes only on success, and
    a download never writes to the server.
   */
  function Sync(l: Local, isUploading: bool, env: Env): (r: (Local, WebDavServer.Server, Ending))
    ensures l.sync.token == "" ==> r == (l, env.server, Rejected(MissingToken))
    ensures l.sync.token != "" && !isUploading && l.sync.gist == "" ==> r == (l, env.server, Rejected(MissingGist))
    ensures r.2.Rejected? <==> l.sync.token == "" || (!isUploading && l.sync.gist == "")
    ensures r.2.Stalled? ==> isUploading && r.0 == l.(uploading := true) && r.1 == env.server
    ensures r.2.Finished? ==> r.0.saves == l.saves + 1
    ensures r.2.Finished? ==> if isUploading then !r.0.uploading && r.0.downloading == l.downloading
                              else !r.0.downloading && r.0.uploading == l.uploading
    ensures r.0.sync.lastSyncTime != l.sync.lastSyncTime ==> r.2 == Finished(true)
    ensures r.2 == Finished(true) ==> r.0.sync.lastSyncTime == Format(env.clock)
    ensures !isUploading ==> r.1 == env.server && r.0.sync == l.sync.(lastSyncTime := r.0.sync.lastSyncTime)
    ensures isUploading ==> r.0.doc == l.doc && r.0.passwords == l.passwords
    ensures WellFormed(l) ==> WellFormed(r.0)
    ensures l.sync.token != "" && isUploading ==> r == Upload(l, env, Format(env.clock))
    ensures l.sync.token != "" && !isUploading && l.sync.gist != "" ==>
      r == Download(l, env, Bridge.Get(l.sync.token, l.sync.baseUrl, l.sync.gist, env.server), Format(env.clock))
  {
    var stamp := Format(env.clock);
    if l.sync.token == "" then (l, env.server, Rejected(MissingToken))
    else if isUploading then Upload(l, env, stamp)
    else if l.sync.gist == "" then (l, env.server, Rejected(MissingGist))
    else Download(l, env, Bridge.Get(l.sync.token, l.sync.baseUrl, l.sync.gist, env.server), stamp)
  }

  // ---------------------------------------------------------- properties

  /** With the section's defaults, both directions stop at the token guard. */
  lemma DefaultsRejected(l: Local, isUploading: bool, env: Env)
    requires l.sync == DefaultSyncConfig
    ensures Sync(l, isUploading, env) == (l, env.server, Rejected(MissingToken))
  {
  }

  /** The tool accepts the section's URL and token, whatever the directory. */
  predicate CredentialsAccepted(c: SyncConfig) {
    && c.baseUrl != ""
    && Bridge.ParseCredentials(c.token).username != ""
    && Bridge.ParseCredentials(c.token).password != ""
  }

  lemma AcceptedForAnyDir(c: SyncConfig, dir: string)
    requires CredentialsAccepted(c)
    ensures SyncTool.ValidateCredentials(Bridge.ToolArgs(c.token, c.baseUrl, dir)).Pass?
    ensures SyncTool.ValidateCredentials(Bridge.GetArgs(c.token, c.baseUrl, dir)).Pass?
  {
  }

  /** The tool's view of the two uploaded files. */
  function UploadedFiles(l: Local, infos: seq<Value>, codec: Codec): seq<WebDavClient.File> {
    [ WebDavClient.File(ConfigYaml, codec.dumpYaml(Obj(l.doc))), WebDavClient.File(SshAuth, codec.stringify(Arr(infos))) ]
  }

  /**
    An upload pushes exactly the settings without `syncConfig` as
    `config.yaml` and then the bundle as `ssh.auth.json` into the configured
    directory, and on success records the directory the tool used.
   */
  lemma UploadPushes(l: Local, env: Env, stamp: string, infos: seq<Value>)
    requires WellFormed(l) && CredentialsAccepted(l.sync)
    requires GatherInfos(Store(l), env.load) == Some(infos)
    ensures var pushed := WebDavClient.Sync(env.server, l.sync.gist, UploadedFiles(l, infos, env.codec), env.unixNow);
      && Upload(l, env, stamp).1 == pushed.0
      && (Upload(l, env, stamp).2 == Finished(true) <==> pushed.1.Success?)
      && (pushed.1.Success? ==> Upload(l, env, stamp).0.sync.gist == WebDavClient.SyncDir(l.sync.gist, env.unixNow))
  {
    StoreWithoutSyncConfig(l);
    AcceptedForAnyDir(l.sync, l.sync.gist);
    assert Bridge.ToToolFiles(UploadFiles(l, infos, env.codec)) == UploadedFiles(l, infos, env.codec);
  }

  /**
    A download reads `config.yaml` when it is there and `config.json` only
    when it is not; with neither, the document is left as it was.
   */
  lemma DownloadPrecedence(l: Local, env: Env, m: map<string, Bridge.GistFile>, stamp: string)
    ensures ConfigYaml in m && env.codec.loadYaml(m[ConfigYaml].content).Some? && env.codec.loadYaml(m[ConfigYaml].content).value.Obj? ==>
      Download(l, env, Success(m), stamp).0.doc == env.codec.loadYaml(m[ConfigYaml].content).value.fields - {SyncConfigKey}
    ensures ConfigYaml !in m && ConfigJson in m && env.codec.loadYaml(m[ConfigJson].content).Some? && env.codec.loadYaml(m[ConfigJson].content).value.Obj? ==>
      Download(l, env, Success(m), stamp).0.doc == env.codec.loadYaml(m[ConfigJson].content).value.fields - {SyncConfigKey}
    ensures ConfigYaml !in m && ConfigJson !in m ==> Download(l, env, Success(m), stamp).0.doc == l.doc
  {
  }

  /**
    Reading back a name a successful push wrote gives the pushed content,
    through the plugin's map, provided the listing and that one read are not refused.
   */
  lemma ReadBack(s: WebDavServer.Server, dir: string, files: seq<WebDavClient.File>, now: nat, token: string, baseUrl: string, name: string)
    requires WebDavServer.Valid(s) && WebDavClient.Sync(s, dir, files, now).1.Success?
    requires WebDavServer.ListOp(WebDavClient.SyncDir(dir, now)) !in s.faults
    requires WebDavServer.ReadOp(WebDavClient.SyncDir(dir, now), name) !in s.faults
    requires CredentialsAccepted(SyncConfig(baseUrl, token, "", ""))
    requires name in WebDavClient.LastWins(files)
    ensures var s' := WebDavClient.Sync(s, dir, files, now).0;
      var got := Bridge.Get(token, baseUrl, WebDavClient.SyncDir(dir, now), s');
      && got.Success? && name in got.value && got.value[name].content == WebDavClient.LastWins(files)[name]
  {
    var d := WebDavClient.SyncDir(dir, now);
    var s' := WebDavClient.Sync(s, dir, files, now).0;
    var content := WebDavClient.LastWins(files)[name];
    WebDavClient.SyncNaming(dir, now);
    assert WebDavClient.GetDir(d) == d;
    AcceptedForAnyDir(SyncConfig(baseUrl, token, "", ""), d);
    var es := WebDavServer.Children(s', d);
    assert WebDavServer.Lookup(es, name) == Some(WebDavServer.FileEntry(name, content));
    WebDavClient.GetContents(s', d, WebDavClient.File(name, content));
    var listed := WebDavClient.Get(s', d).value;
    assert name in WebDavClient.LastWins(listed);
    WebDavClient.LastWinsFrom(listed, name);
    var f := WebDavClient.File(name, WebDavClient.LastWins(listed)[name]);
    WebDavClient.GetContents(s', d, f);
    WebDavServer.LookupUnique(es, WebDavServer.FileEntry(f.name, f.content));
  }

  /** The two uploaded names are distinct, so each keeps its own content. */
  lemma UploadedNames(l: Local, infos: seq<Value>, codec: Codec)
    ensures var m := WebDavClient.LastWins(UploadedFiles(l, infos, codec));
      && ConfigYaml in m && m[ConfigYaml] == codec.dumpYaml(Obj(l.doc))
      && SshAuth in m && m[SshAuth] == codec.stringify(Arr(infos))
      && forall n :: n in m <==> n == ConfigYaml || n == SshAuth
  {
    var fs := UploadedFiles(l, infos, codec);
    WebDavClient.LastWinsIsLast(fs, 0);
    WebDavClient.LastWinsIsLast(fs, 1);
  }

  /** A download that fetches a loadable `config.yaml` and a parsable bundle succeeds and adopts both. */
  lemma DownloadBoth(l: Local, env: Env, m: map<string, Bridge.GistFile>, stamp: string, fields: map<string, Value>, records: seq<Value>)
    requires ConfigYaml in m && env.codec.loadYaml(m[ConfigYaml].content) == Some(Obj(fields))
    requires SshAuth in m && env.codec.parseRecords(m[SshAuth].content) == Some(records)
    ensures Download(l, env, Success(m), stamp) ==
      (Local(fields - {SyncConfigKey}, l.sync.(lastSyncTime := stamp), l.uploading, false, l.saves + 1, l.passwords + Restore(records, env.save)),
       env.server, Finished(true))
  {
    var busy := l.(downloading := true);
    var applied := busy.(doc := fields - {SyncConfigKey}, passwords := l.passwords + Restore(records, env.save));
    assert ApplyFetched(busy, m, env) == (applied, true) by {
      assert ConfigSource(m) == Some(m[ConfigYaml].content);
    }
  }

  /**
    Round trip: after a successful upload, a download from the same server
    with codecs that read back what was written restores the same settings,
    keeps the local `syncConfig` (with the adopted directory), saves the
    uploaded password records, and succeeds.
   */
  lemma UploadThenDownload(l: Local, env: Env, env2: Env, infos: seq<Value>, stamp: string, stamp2: string)
    requires WellFormed(l) && WebDavServer.Valid(env.server) && CredentialsAccepted(l.sync)
    requires GatherInfos(Store(l), env.load) == Some(infos)
    requires Upload(l, env, stamp).2 == Finished(true)
    requires env2.server == Upload(l, env, stamp).1
    requires var d := WebDavClient.SyncDir(l.sync.gist, env.unixNow);
      && WebDavServer.ListOp(d) !in env.server.faults
      && WebDavServer.ReadOp(d, ConfigYaml) !in env.server.faults
      && WebDavServer.ReadOp(d, SshAuth) !in env.server.faults
    requires env2.codec.loadYaml(env.codec.dumpYaml(Obj(l.doc))) == Some(Obj(l.doc))
    requires env2.codec.parseRecords(env.codec.stringify(Arr(infos))) == Some(infos)
    ensures var up := Upload(l, env, stamp).0;
      var down := Download(up, env2, Bridge.Get(up.sync.token, up.sync.baseUrl, up.sync.gist, env2.server), stamp2);
      && up.sync == l.sync.(gist := WebDavClient.SyncDir(l.sync.gist, env.unixNow), lastSyncTime := stamp)
      && down.2 == Finished(true)
      && down.1 == env2.server
      && down.0.doc == l.doc
      && down.0.sync == up.sync.(lastSyncTime := stamp2)
      && down.0.passwords == l.passwords + Restore(infos, env2.save)
  {
    var up := Upload(l, env, stamp).0;
    assert up.sync == l.sync.(gist := WebDavClient.SyncDir(l.sync.gist, env.unixNow), lastSyncTime := stamp)
      && up.doc == l.doc && up.passwords == l.passwords
      && env2.server == WebDavClient.Sync(env.server, l.sync.gist, UploadedFiles(l, infos, env.codec), env.unixNow).0
      && WebDavClient.Sync(env.server, l.sync.gist, UploadedFiles(l, infos, env.codec), env.unixNow).1.Success? by {
      UploadPushes(l, env, stamp, infos);
    }
    var files := UploadedFiles(l, infos, env.codec);
    UploadedNames(l, infos, env.codec);
    DownloadPushed(l, infos, env.codec, env.server, files, env.unixNow, up, env2, stamp2);
  }

  /**
    The download half of the round trip, from any local state that adopted
    the directory of a successful push whose names read back as the settings
    and the bundle.
   */
  lemma DownloadPushed(l: Local, infos: seq<Value>, codec: Codec, s: WebDavServer.Server, files: seq<WebDavClient.File>, now: nat,
                       up: Local, env2: Env, stamp2: string)
    requires WellFormed(l) && WebDavServer.Valid(s) && CredentialsAccepted(l.sync)
    requires var m := WebDavClient.LastWins(files);
      && ConfigYaml in m && m[ConfigYaml] == codec.dumpYaml(Obj(l.doc))
      && SshAuth in m && m[SshAuth] == codec.stringify(Arr(infos))
    requires WebDavClient.Sync(s, l.sync.gist, files, now).1.Success?
    requires env2.server == WebDavClient.Sync(s, l.sync.gist, files, now).0
    requires var d := WebDavClient.SyncDir(l.sync.gist, now);
      && WebDavServer.ListOp(d) !in s.faults
      && WebDavServer.ReadOp(d, ConfigYaml) !in s.faults
      && WebDavServer.ReadOp(d, SshAuth) !in s.faults
    requires up.sync.token == l.sync.token && up.sync.baseUrl == l.sync.baseUrl
    requires up.sync.gist == WebDavClient.SyncDir(l.sync.gist, now)
    requires env2.codec.loadYaml(codec.dumpYaml(Obj(l.doc))) == Some(Obj(l.doc))
    requires env2.codec.parseRecords(codec.stringify(Arr(infos))) == Some(infos)
    ensures Download(up, env2, Bridge.Get(up.sync.token, up.sync.baseUrl, up.sync.gist, env2.server), stamp2) ==
      (Local(l.doc, up.sync.(lastSyncTime := stamp2), up.uploading, false, up.saves + 1, up.passwords + Restore(infos, env2.save)),
       env2.server, Finished(true))
  {
    var fetched := Bridge.Get(up.sync.token, up.sync.baseUrl, up.sync.gist, env2.server);
    assert fetched == Bridge.Get(l.sync.token, l.sync.baseUrl, WebDavClient.SyncDir(l.sync.gist, now), WebDavClient.Sync(s, l.sync.gist, files, now).0);
    assert CredentialsAccepted(SyncConfig(l.sync.baseUrl, l.sync.token, "", ""));
    ReadBack(s, l.sync.gist, files, now, l.sync.token, l.sync.baseUrl, ConfigYaml);
    ReadBack(s, l.sync.gist, files, now, l.sync.token, l.sync.baseUrl, SshAuth);
    assert fetched == Success(fetched.value);
    StoreWithoutSyncConfig(l);
    DownloadBoth(up, env2, fetched.value, stamp2, l.doc, infos);
  }

  /** The same round trip through `sync`: an upload and then a download, each stamped with its own clock. */
  lemma SyncRoundTrip(l: Local, env: Env, env2: Env, infos: seq<Value>)
    requires WellFormed(l) && WebDavServer.Valid(env.server) && CredentialsAccepted(l.sync) && l.sync.token != ""
    requires GatherInfos(Store(l), env.load) == Some(infos)
    requires Sync(l, true, env).2 == Finished(true)
    requires env2.server == Sync(l, true, env).1
    requires var d := WebDavClient.SyncDir(l.sync.gist, env.unixNow);
      && WebDavServer.ListOp(d) !in env.server.faults
      && WebDavServer.ReadOp(d, ConfigYaml) !in env.server.faults
      && WebDavServer.ReadOp(d, SshAuth) !in env.server.faults
    requires env2.codec.loadYaml(env.codec.dumpYaml(Obj(l.doc))) == Some(Obj(l.doc))
    requires env2.codec.parseRecords(env.codec.stringify(Arr(infos))) == Some(infos)
    ensures var up := Sync(l, true, env).0;
      var down := Sync(up, false, env2);
      && down.2 == Finished(true)
      && down.0.doc == l.doc
      && down.0.sync == l.sync.(gist := WebDavClient.SyncDir(l.sync.gist, env.unixNow), lastSyncTime := Format(env2.clock))
      && down.0.passwords == l.passwords + Restore(infos, env2.save)
  {
    var stamp := Format(env.clock);
    UploadThenDownload(l, env, env2, infos, stamp, Format(env2.clock));
    WebDavClient.SyncNaming(l.sync.gist, env.unixNow);
  }
}

=== FILE: sync_tool.dfy ===
/**
  The sync tool's command layer (`sync-tool/cmd/main.go`): the `get`, `sync`
  and `delete` subcommands, their guards on the command-line flags, and the
  `user:password` token splitter. A run either exits with an error or prints a
  JSON reply; the reply is modelled as its three keys.
 */
module SyncTool {
  import opened Wrappers
  import opened Text
  import opened WebDavServer
  import WebDavClient

  /** The persistent flags `--url`, `--username`, `--password` and `--dir`. */
  datatype Args = Args(serverUrl: string, username: string, password: string, directory: string)

  datatype ToolError =
    | MissingUrl
    | MissingCredentials
    | MissingDirectory
    | ClientFailed(cause: WebDavClient.Error)

  /** The printed JSON object; a key that is absent is `None`. */
  datatype Reply = Reply(success: bool, files: Option<seq<WebDavClient.File>>, directory: Option<string>)

  /** How a run ends: exit status 1 with an error message, or a reply on standard output. */
  datatype Run = Exited(error: ToolError) | Printed(reply: Reply)

  /** Every subcommand needs a server URL, a username and a password; the URL is checked first. */
  function ValidateCredentials(a: Args): (r: Outcome<ToolError>)
    ensures r.Pass? <==> a.serverUrl != "" && a.username != "" && a.password != ""
    ensures r.Fail? ==> (r.error == MissingUrl <==> a.serverUrl == "")
    ensures r.Fail? ==> r.error.MissingUrl? || r.error.MissingCredentials?
  {
    if a.serverUrl == "" then Fail(MissingUrl)
    else if a.username == "" || a.password == "" then Fail(MissingCredentials)
    else Pass
  }

  /** Split a `user:password` token at its first colon; without a colon the password is empty. */
  function ParseToken(token: string): (r: (string, string))
    ensures ':' !in token ==> r == (token, "")
    ensures ':' in token ==> ':' !in r.0 && token == r.0 + ":" + r.1
  {
    match IndexOf(token, ':')
    case None => (token, "")
    case Some(i) =>
      assert token == token[..i] + ":" + token[i + 1..];
      (token[..i], token[i + 1..])
  }

  /** A colon-free user name followed by a colon comes back whole, whatever follows it. */
  lemma ParseTokenRoundTrip(user: string, rest: string)
    requires ':' !in user
    ensures ParseToken(user + ":" + rest) == (user, rest)
  {
    var t := user + ":" + rest;
    assert t[|user|] == ':';
    assert t[..|user|] == user;
    assert t[|user| + 1..] == rest;
  }

  /** `get`: list the directory (the client picks the default for an empty one). */
  function RunGet(a: Args, s: Server): (r: Run)
    ensures ValidateCredentials(a).Fail? ==> r == Exited(ValidateCredentials(a).error)
    ensures r.Printed? <==> ValidateCredentials(a).Pass? && WebDavClient.Get(s, a.directory).Success?
    ensures r.Printed? ==> r.reply == Reply(true, Some(WebDavClient.Get(s, a.directory).value), None)
  {
    match ValidateCredentials(a)
    case Fail(e) => Exited(e)
    case Pass =>
      match WebDavClient.Get(s, a.directory)
      case Failure(e) => Exited(ClientFailed(e))
      case Success(files) => Printed(Reply(true, Some(files), None))
  }

  /** `sync`: push the files read from standard input and report the directory used. */
  function RunSync(a: Args, s: Server, files: seq<WebDavClient.File>, now: nat): (r: (Server, Run))
    ensures ValidateCredentials(a).Fail? ==> r == (s, Exited(ValidateCredentials(a).error))
    ensures ValidateCredentials(a).Pass? ==> r.0 == WebDavClient.Sync(s, a.directory, files, now).0
    ensures r.1.Printed? <==> ValidateCredentials(a).Pass? && WebDavClient.Sync(s, a.directory, files, now).1.Success?
    ensures r.1.Printed? ==>
      r.1.reply == Reply(true, None, Some(WebDavClient.Sync(s, a.directory, files, now).1.value))
  {
    match ValidateCredentials(a)
    case Fail(e) => (s, Exited(e))
    case Pass =>
      var (s', result) := WebDavClient.Sync(s, a.directory, files, now);
      match result
      case Failure(e) => (s', Exited(ClientFailed(e)))
      case Success(dir) => (s', Printed(Reply(true, None, Some(dir))))
  }

  /** `delete`: remove the directory, which must be named. */
  function RunDelete(a: Args, s: Server): (r: (Server, Run))
    ensures ValidateCredentials(a).Fail? ==> r == (s, Exited(ValidateCredentials(a).error))
    ensures ValidateCredentials(a).Pass? && a.directory == "" ==> r == (s, Exited(MissingDirectory))
    ensures r.1.Printed? <==> ValidateCredentials(a).Pass? && WebDavClient.Delete(s, a.directory).1.Pass?
    ensures r.1.Printed? ==> r.1.reply == Reply(true, None, None) && r.0 == WebDavClient.Delete(s, a.directory).0
    ensures ValidateCredentials(a).Pass? && a.directory != "" ==> r.0 == WebDavClient.Delete(s, a.directory).0
  {
    match ValidateCredentials(a)
    case Fail(e) => (s, Exited(e))
    case Pass =>
      if a.directory == "" then (s, Exited(MissingDirectory))
      else
        var (s', outcome) := WebDavClient.Delete(s, a.directory);
        match outcome
        case Fail(e) => (s', Exited(ClientFailed(e)))
        case Pass => (s', Printed(Reply(true, None, None)))
  }

  /**
    A run whose flags fail validation, or a `delete` without a directory, never
    reaches the server: its result does not depend on the store, which stays as it was.
   */
  lemma GuardsPrecedeClient(a: Args, s1: Server, s2: Server, files: seq<WebDavClient.File>, now: nat)
    ensures ValidateCredentials(a).Fail? ==>
      && RunGet(a, s1) == RunGet(a, s2)
      && RunSync(a, s1, files, now) == (s1, RunSync(a, s2, files, now).1)
      && RunDelete(a, s1) == (s1, RunDelete(a, s2).1)
    ensures a.directory == "" ==> RunDelete(a, s1) == (s1, RunDelete(a, s2).1) && RunDelete(a, s1).1.Exited?
  {
  }
}

=== FILE: text.dfy ===
/**
  String helpers used by the credential parsers, the directory namer and the
  timestamp formatter: first-occurrence search, separator counting, splitting,
  trailing-character trimming and decimal rendering of naturals.
 */
module Text {
  import opened Wrappers

  /** Position of the first `c` in `s`, if any. */
  function IndexOf(s: string, c: char): (r: Option<nat>)
    ensures r.None? <==> c !in s
    ensures r.Some? ==> r.value < |s| && s[r.value] == c && c !in s[..r.value]
  {
    if |s| == 0 then None
    else if s[0] == c then Some(0)
    else
      match IndexOf(s[1..], c)
      case None => None
      case Some(i) =>
        assert s[..i + 1] == [s[0]] + s[1..][..i];
        Some(i + 1)
  }

  /** The first `c` after a `c`-free prefix is the one right after it. */
  lemma IndexOfAfter(x: string, c: char, y: string)
    requires c !in x
    ensures IndexOf(x + [c] + y, c) == Some(|x|)
  {
    var t := x + [c] + y;
    assert t[|x|] == c;
    assert forall i :: 0 <= i < |x| ==> t[i] == x[i];
  }

  /** Number of occurrences of `c` in `s`. */
  function Count(s: string, c: char): nat {
    if |s| == 0 then 0 else (if s[0] == c then 1 else 0) + Count(s[1..], c)
  }

  lemma {:induction false} CountAppend(a: string, b: string, c: char)
    ensures Count(a + b, c) == Count(a, c) + Count(b, c)
  {
    if |a| > 0 {
      assert (a + b)[1..] == a[1..] + b;
      CountAppend(a[1..], b, c);
    } else {
      assert a + b == b;
    }
  }

  lemma {:induction false} CountAbsent(s: string, c: char)
    ensures Count(s, c) == 0 <==> c !in s
  {
    if |s| > 0 {
      CountAbsent(s[1..], c);
      assert s == [s[0]] + s[1..];
    }
  }

  /** Puts `sep` between consecutive parts; the inverse of `Split`. */
  function Join(parts: seq<string>, sep: char): string {
    if |parts| == 0 then ""
    else if |parts| == 1 then parts[0]
    else parts[0] + [sep] + Join(parts[1..], sep)
  }

  /**
    JavaScript's `String.prototype.split` with a one-character separator:
    every occurrence cuts, so there is always one more part than separators,
    and the empty string yields one empty part.
   */
  function Split(s: string, sep: char): (parts: seq<string>)
    ensures |parts| == Count(s, sep) + 1
    ensures forall i :: 0 <= i < |parts| ==> sep !in parts[i]
    ensures Join(parts, sep) == s
    decreases |s|
  {
    match IndexOf(s, sep)
    case None =>
      CountAbsent(s, sep);
      [s]
    case Some(i) =>
      var rest := Split(s[i + 1..], sep);
      CountAtFirst(s, i, sep);
      var parts := [s[..i]] + rest;
      assert parts[1..] == rest;
      assert s == s[..i] + [sep] + s[i + 1..];
      parts
  }

  /** Cutting at the first separator removes exactly one occurrence. */
  lemma CountAtFirst(s: string, i: nat, sep: char)
    requires i < |s| && s[i] == sep && sep !in s[..i]
    ensures Count(s, sep) == Count(s[i + 1..], sep) + 1
  {
    assert s == s[..i] + ([sep] + s[i + 1..]);
    CountAbsent(s[..i], sep);
    CountAppend(s[..i], [sep] + s[i + 1..], sep);
    CountAppend([sep], s[i + 1..], sep);
    assert Count([sep], sep) == 1;
  }

  /** Go's `strings.TrimRight(s, cutset)` for a one-character cutset. */
  function TrimRight(s: string, c: char): (r: string)
    ensures r <= s
    ensures |r| == 0 || r[|r| - 1] != c
    ensures forall i :: |r| <= i < |s| ==> s[i] == c
  {
    if |s| > 0 && s[|s| - 1] == c then TrimRight(s[..|s| - 1], c) else s
  }

  predicate IsDigit(ch: char) {
    '0' <= ch <= '9'
  }

  predicate AllDigits(s: string) {
    forall i :: 0 <= i < |s| ==> IsDigit(s[i])
  }

  function DigitChar(d: nat): (ch: char)
    requires d < 10
    ensures IsDigit(ch)
  {
    ('0' as int + d) as char
  }

  /** The number a string of decimal digits denotes (the empty string denotes 0). */
  function DigitsValue(s: string): nat
    requires AllDigits(s)
  {
    if |s| == 0 then 0
    else DigitsValue(s[..|s| - 1]) * 10 + (s[|s| - 1] as int - '0' as int)
  }

  /** JavaScript's and Go's rendering of a natural number in base ten. */
  function Decimal(n: nat): (r: string)
    ensures 1 <= |r| && AllDigits(r)
    ensures DigitsValue(r) == n
    ensures |r| > 1 ==> r[0] != '0'
  {
    if n < 10 then [DigitChar(n)]
    else
      var r := Decimal(n / 10) + [DigitChar(n % 10)];
      assert r[..|r| - 1] == Decimal(n / 10);
      r
  }

  /** The decimal rendering is injective: distinct numbers give distinct strings. */
  lemma DecimalInjective(a: nat, b: nat)
    requires Decimal(a) == Decimal(b)
    ensures a == b
  {
  }

  /** Digit counts of the renderings the timestamp formatter relies on. */
  lemma {:induction false} DecimalLength(n: nat)
    ensures n < 10 ==> |Decimal(n)| == 1
    ensures 10 <= n < 100 ==> |Decimal(n)| == 2
    ensures 100 <= n < 1000 ==> |Decimal(n)| == 3
    ensures 1000 <= n < 10000 ==> |Decimal(n)| == 4
  {
    if n >= 10 {
      DecimalLength(n / 10);
    }
  }
}

=== FILE: values.dfy ===
/**
  Parsed configuration values as the plugin's TypeScript sees them, with the
  few JavaScript semantics the sync component depends on: falsiness, `||`
  defaults, property reads that throw on `null`, `typeof … === "object"`, and
  loose equality with the string "3".
 */
module Values {
  import opened Wrappers

  /** A YAML/JSON value. Numbers are integers; `undefined` is `None` wherever a value may be missing. */
  datatype Value =
    | Null
    | Bool(b: bool)
    | Num(n: int)
    | Str(s: string)
    | Arr(items: seq<Value>)
    | Obj(fields: map<string, Value>)

  /** The exception a property read on `null` or `undefined` raises. */
  datatype TypeError = TypeError

  /** JavaScript falsiness: `undefined`, `null`, `false`, `0` and `""`. */
  predicate Falsy(v: Option<Value>) {
    match v
    case None => true
    case Some(Null) => true
    case Some(Bool(b)) => !b
    case Some(Num(n)) => n == 0
    case Some(Str(s)) => s == ""
    case Some(_) => false
  }

  /** `v || fallback`. */
  function Or(v: Option<Value>, fallback: Value): (r: Value)
    ensures Falsy(v) ==> r == fallback
    ensures !Falsy(v) ==> v == Some(r)
  {
    if Falsy(v) then fallback else v.value
  }

  /** A key of an object, or `undefined`. */
  function Field(m: map<string, Value>, key: string): Option<Value> {
    if key in m then Some(m[key]) else None
  }

  /** The property read `v.key`: throws on `null`, is `undefined` unless `v` is an object holding `key`. */
  function Prop(v: Value, key: string): (r: Result<Option<Value>, TypeError>)
    ensures r.Failure? <==> v.Null?
    ensures r.Success? && r.value.Some? ==> v.Obj? && key in v.fields && r.value.value == v.fields[key]
  {
    match v
    case Null => Failure(TypeError)
    case Obj(m) => Success(Field(m, key))
    case _ => Success(None)
  }

  /** `typeof v === "object"`, which holds for `null` and arrays too. */
  predicate IsObjectType(v: Option<Value>) {
    v.Some? && (v.value.Null? || v.value.Arr? || v.value.Obj?)
  }

  /** `String(v) === "3"` for the values whose string form can be "3". */
  predicate StringifiesToThree(v: Value) {
    match v
    case Str(s) => s == "3"
    case Num(n) => n == 3
    case Arr(items) => |items| == 1 && StringifiesToThree(items[0])
    case _ => false
  }

  /** `v == "3"`: a number converts the string to 3, an array converts itself to a string first. */
  predicate LooselyEqualsThree(v: Option<Value>) {
    v.Some? && StringifiesToThree(v.value)
  }
}

=== FILE: webdav_client.dfy ===
/**
  The Go sync tool's WebDAV client (`sync-tool/pkg/webdav/client.go`): reading a
  directory of configuration files, pushing a set of files into a directory
  (naming one when none is given), and removing a directory. Every operation
  takes the store it talks to and returns the store afterwards.
 */
module WebDavClient {
  import opened Wrappers
  import opened Text
  import opened WebDavServer

  /** A configuration file: a name inside a directory and its text. */
  datatype File = File(name: string, content: string)

  /** The connection settings a client is created with. */
  datatype Client = Client(baseUrl: string, username: string, password: string)

  /** Directory read when the caller names none. */
  const DefaultDir: string := "tabby-config"

  /** Prefix of the directory name synthesised when a push names none. */
  const AutoDirPrefix: string := "tabby-config-"

  datatype Error =
    | ListFailed(cause: Fault)
    | MkdirFailed(cause: Fault)
    | WriteFailed(name: string, cause: Fault)
    | DirRequired
    | RemoveDirFailed(cause: Fault)

  /** `NewClient` keeps the credentials and drops every trailing slash of the base URL. */
  function NewClient(baseUrl: string, username: string, password: string): (c: Client)
    ensures c.baseUrl <= baseUrl
    ensures |c.baseUrl| == 0 || c.baseUrl[|c.baseUrl| - 1] != '/'
    ensures forall i :: |c.baseUrl| <= i < |baseUrl| ==> baseUrl[i] == '/'
    ensures c.username == username && c.password == password
  {
    Client(TrimRight(baseUrl, '/'), username, password)
  }

  // ---------------------------------------------------------------- Get

  /** The directory `Get` lists: the given one, or the default when it is empty. */
  function GetDir(dir: string): string {
    if dir == "" then DefaultDir else dir
  }

  /** `f` is what reading the listed file `e` of `d` returns. */
  predicate ReadAs(s: Server, d: string, e: Entry, f: File) {
    e.FileEntry? && e.name == f.name && Read(s, d, e.name) == Success(f.content)
  }

  /**
    The loop body of `Get`: every listed child that is a file and can be read
    becomes a `File`; nested collections and unreadable files are skipped.
   */
  function ReadFiles(s: Server, d: string, entries: seq<Entry>): (r: seq<File>)
    ensures |r| <= |entries|
    ensures forall f :: f in r <==> exists i :: 0 <= i < |entries| && ReadAs(s, d, entries[i], f)
  {
    if |entries| == 0 then []
    else
      var rest := ReadFiles(s, d, entries[1..]);
      var e := entries[0];
      assert forall i :: 1 <= i < |entries| ==> entries[i] == entries[1..][i - 1];
      if e.DirEntry? then rest
      else
        match Read(s, d, e.name)
        case Failure(_) => rest
        case Success(c) =>
          assert forall f :: ReadAs(s, d, e, f) <==> f == File(e.name, c);
          [File(e.name, c)] + rest
  }

  /** Reading proceeds entry by entry: one entry's outcome does not affect the others'. */
  lemma {:induction false} ReadFilesAppend(s: Server, d: string, a: seq<Entry>, b: seq<Entry>)
    ensures ReadFiles(s, d, a + b) == ReadFiles(s, d, a) + ReadFiles(s, d, b)
  {
    if |a| > 0 {
      assert (a + b)[1..] == a[1..] + b;
      ReadFilesAppend(s, d, a[1..], b);
    } else {
      assert a + b == b;
    }
  }

  /** The files of a directory; a directory that does not exist reads as empty. */
  function Get(s: Server, dir: string): (r: Result<seq<File>, Error>)
    ensures r.Failure? <==> ListOp(GetDir(dir)) in s.faults
    ensures r.Failure? ==> r.error == ListFailed(Refused(ListOp(GetDir(dir))))
    ensures r.Success? && GetDir(dir) !in s.dirs ==> r.value == []
    ensures r.Success? ==> forall f :: f in r.value <==> exists e :: e in Children(s, GetDir(dir)) && ReadAs(s, GetDir(dir), e, f)
    ensures r.Success? && GetDir(dir) in s.dirs ==> r.value == ReadFiles(s, GetDir(dir), s.dirs[GetDir(dir)])
  {
    var d := GetDir(dir);
    match ReadDir(s, d)
    case Failure(NotFound) => Success([])
    case Failure(e) => Failure(ListFailed(e))
    case Success(entries) => Success(ReadFiles(s, d, entries))
  }

  /** In a well-formed store, `Get` returns exactly the listed files whose read is not refused. */
  lemma GetContents(s: Server, dir: string, f: File)
    requires Valid(s) && Get(s, dir).Success?
    ensures f in Get(s, dir).value <==>
      FileEntry(f.name, f.content) in Children(s, GetDir(dir)) && ReadOp(GetDir(dir), f.name) !in s.faults
  {
    var d := GetDir(dir);
    var es := Children(s, d);
    assert UniqueNames(es);
    if f in Get(s, dir).value {
      var e :| e in es && ReadAs(s, d, e, f);
      LookupUnique(es, e);
    }
    if FileEntry(f.name, f.content) in es && ReadOp(d, f.name) !in s.faults {
      LookupUnique(es, FileEntry(f.name, f.content));
      assert ReadAs(s, d, FileEntry(f.name, f.content), f);
    }
  }

  // --------------------------------------------------------------- Sync

  /**
    The content each name ends up with when `files` are written in order:
    a later file of the same name overwrites an earlier one.
   */
  function LastWins(files: seq<File>): (m: map<string, string>)
    ensures m.Keys == set f | f in files :: f.name
  {
    if |files| == 0 then map[]
    else
      var rest := LastWins(files[1..]);
      assert forall x :: x in files <==> x == files[0] || x in files[1..];
      map[files[0].name := files[0].content] + rest
  }

  /** Every name `LastWins` keeps maps to the content of a file of that name. */
  lemma {:induction false} LastWinsFrom(files: seq<File>, n: string)
    requires n in LastWins(files)
    ensures File(n, LastWins(files)[n]) in files
  {
    if n in LastWins(files[1..]) {
      LastWinsFrom(files[1..], n);
    }
  }

  /** The content `LastWins` keeps for a name is that of the last file with that name. */
  lemma {:induction false} LastWinsIsLast(files: seq<File>, i: nat)
    requires i < |files|
    requires forall j :: i < j < |files| ==> files[j].name != files[i].name
    ensures files[i].name in LastWins(files) && LastWins(files)[files[i].name] == files[i].content
  {
    if i > 0 {
      var rest := files[1..];
      forall j | i - 1 < j < |rest|
        ensures rest[j].name != rest[i - 1].name
      {
        assert rest[j] == files[j + 1];
      }
      LastWinsIsLast(rest, i - 1);
    }
  }

  /** The directory `Sync` writes to: the given one, or a fresh name from the clock. */
  function SyncDir(dir: string, now: nat): string {
    if dir == "" then AutoDirPrefix + Decimal(now) else dir
  }

  /** The upload loop of `Sync`: write the files in order and stop at the first failed write. */
  function WriteAll(s: Server, d: string, files: seq<File>): (r: (Server, Outcome<Error>))
    ensures r.0.faults == s.faults
    ensures r.0.dirs - {d} == s.dirs - {d}
    ensures d in s.dirs ==> d in r.0.dirs
    ensures Valid(s) ==> Valid(r.0)
    ensures r.1.Pass? ==> forall n ::
      Lookup(Children(r.0, d), n) == (if n in LastWins(files) then Some(FileEntry(n, LastWins(files)[n])) else Lookup(Children(s, d), n))
    ensures r.1.Fail? ==> r.1.error.WriteFailed? && r.1.error.name in LastWins(files)
    decreases |files|
  {
    if |files| == 0 then (s, Pass)
    else
      match Write(s, d, files[0].name, files[0].content)
      case Failure(e) => (s, Fail(WriteFailed(files[0].name, e)))
      case Success(s1) =>
        var r := WriteAll(s1, d, files[1..]);
        assert files[0] in files;
        r
  }

  /**
    Push `files` into `dir`, creating it if needed; an empty `dir` is replaced by
    a name built from the clock. Existing files of other names stay.
   */
  function Sync(s: Server, dir: string, files: seq<File>, now: nat): (r: (Server, Result<string, Error>))
    ensures r.0.faults == s.faults
    ensures r.0.dirs - {SyncDir(dir, now)} == s.dirs - {SyncDir(dir, now)}
    ensures Valid(s) ==> Valid(r.0)
    ensures r.1.Success? ==> r.1.value == SyncDir(dir, now) && r.1.value in r.0.dirs
    ensures r.1.Success? ==> forall n ::
      Lookup(Children(r.0, r.1.value), n) == (if n in LastWins(files) then Some(FileEntry(n, LastWins(files)[n])) else Lookup(Children(s, r.1.value), n))
    ensures r.1.Failure? ==> (r.1.error.MkdirFailed? && r.0 == s) || r.1.error.WriteFailed?
  {
    var d := SyncDir(dir, now);
    match MkdirAll(s, d)
    case Failure(e) => (s, Failure(MkdirFailed(e)))
    case Success(s1) =>
      var (s2, outcome) := WriteAll(s1, d, files);
      if outcome.Fail? then (s2, Failure(outcome.error)) else (s2, Success(d))
  }

  /** The name `Sync` uses: the caller's, or the fixed prefix followed by the clock's seconds in decimal. */
  lemma SyncNaming(dir: string, now: nat)
    ensures dir != "" ==> SyncDir(dir, now) == dir
    ensures dir == "" ==> var d := SyncDir(dir, now);
      && |d| > |AutoDirPrefix|
      && d[..|AutoDirPrefix|] == AutoDirPrefix
      && AllDigits(d[|AutoDirPrefix|..])
      && DigitsValue(d[|AutoDirPrefix|..]) == now
    ensures SyncDir(dir, now) != ""
  {
    if dir == "" {
      var d := SyncDir(dir, now);
      assert d[|AutoDirPrefix|..] == Decimal(now);
    }
  }

  /** Two pushes without a name at different seconds never share a directory. */
  lemma AutoNamesDistinct(now1: nat, now2: nat)
    requires now1 != now2
    ensures SyncDir("", now1) != SyncDir("", now2)
  {
    SyncNaming("", now1);
    SyncNaming("", now2);
  }

  /**
    A failed push stops at the first failed write: the store is what writing the
    files before it produced, and that write was refused or hit a collection.
   */
  lemma {:induction false} WriteAllStopsAtFirstFailure(s: Server, d: string, files: seq<File>)
    requires WriteAll(s, d, files).1.Fail?
    ensures exists k :: FailedAt(s, d, files, k, WriteAll(s, d, files))
    decreases |files|
  {
    var r := WriteAll(s, d, files);
    var w := Write(s, d, files[0].name, files[0].content);
    if w.Failure? {
      assert files[..0] == [];
      assert FailedAt(s, d, files, 0, r);
    } else {
      var s1 := w.value;
      WriteAllCons(s, s1, d, files);
      WriteAllStopsAtFirstFailure(s1, d, files[1..]);
      var k :| FailedAt(s1, d, files[1..], k, r);
      PrefixCons(s, s1, d, files, k);
      assert FailedAt(s, d, files, k + 1, r);
    }
  }

  lemma PrefixCons(s: Server, s1: Server, d: string, files: seq<File>, k: nat)
    requires k < |files| - 1 && Write(s, d, files[0].name, files[0].content) == Success(s1)
    ensures WriteAll(s, d, files[..k + 1]) == WriteAll(s1, d, files[1..][..k])
    ensures files[1..][k] == files[k + 1]
  {
    WriteAllCons(s, s1, d, files[..k + 1]);
    assert files[..k + 1][1..] == files[1..][..k];
  }

  /**
    `WriteAll` of `files` ended in `r` by writing the first `k` files and then
    failing to write file `k`.
   */
  ghost predicate FailedAt(s: Server, d: string, files: seq<File>, k: int, r: (Server, Outcome<Error>)) {
    && 0 <= k < |files|
    && r.1.Fail?
    && WriteAll(s, d, files[..k]) == (r.0, Pass)
    && Write(r.0, d, files[k].name, files[k].content).Failure?
    && r.1.error == WriteFailed(files[k].name, Write(r.0, d, files[k].name, files[k].content).error)
  }

  /** Unfolding one successful write of `WriteAll`. */
  lemma WriteAllCons(s: Server, s1: Server, d: string, files: seq<File>)
    requires |files| > 0 && Write(s, d, files[0].name, files[0].content) == Success(s1)
    ensures WriteAll(s, d, files) == WriteAll(s1, d, files[1..])
  {
  }

  /**
    Round trip: after a successful push, reading the directory back yields every
    pushed name with the content of its last pushed file, and nothing else under
    those names, provided the server serves the listing and those reads.
   */
  lemma SyncThenGet(s: Server, dir: string, files: seq<File>, now: nat)
    requires Valid(s)
    requires Sync(s, dir, files, now).1.Success?
    requires ListOp(SyncDir(dir, now)) !in s.faults
    requires forall n :: n in LastWins(files) ==> ReadOp(SyncDir(dir, now), n) !in s.faults
    ensures Get(Sync(s, dir, files, now).0, SyncDir(dir, now)).Success?
    ensures forall n :: n in LastWins(files) ==>
      File(n, LastWins(files)[n]) in Get(Sync(s, dir, files, now).0, SyncDir(dir, now)).value
    ensures forall f :: f in Get(Sync(s, dir, files, now).0, SyncDir(dir, now)).value && f.name in LastWins(files) ==>
      f.content == LastWins(files)[f.name]
  {
    var d := SyncDir(dir, now);
    SyncNaming(dir, now);
    var s' := Sync(s, dir, files, now).0;
    var m := LastWins(files);
    assert GetDir(d) == d;
    var es := Children(s', d);
    forall n | n in m
      ensures File(n, m[n]) in Get(s', d).value
    {
      assert Lookup(es, n) == Some(FileEntry(n, m[n]));
      GetContents(s', d, File(n, m[n]));
    }
    forall f | f in Get(s', d).value && f.name in m
      ensures f.content == m[f.name]
    {
      GetContents(s', d, f);
      LookupUnique(es, FileEntry(f.name, f.content));
    }
  }

  // ------------------------------------------------------------- Delete

  /** The file-removal loop of `Delete`: a failed removal is ignored and the loop goes on. */
  function RemoveFiles(s: Server, d: string, entries: seq<Entry>): (r: Server)
    decreases |entries|
    ensures r.faults == s.faults
    ensures r.dirs.Keys == s.dirs.Keys
    ensures r.dirs - {d} == s.dirs - {d}
    ensures d in s.dirs ==> forall e :: e in r.dirs[d] ==> e in s.dirs[d]
  {
    if |entries| == 0 then s
    else
      var e := entries[0];
      var s1 :=
        if e.DirEntry? then s
        else match Remove(s, d, e.name)
          case Success(s') => s'
          case Failure(_) => s;
      RemoveFiles(s1, d, entries[1..])
  }

  /**
    Remove the directory `dir`: an empty name is rejected, a directory that does
    not exist counts as removed, and only the final removal of the directory
    itself can fail the call once the listing succeeded.
   */
  function Delete(s: Server, dir: string): (r: (Server, Outcome<Error>))
    ensures dir == "" ==> r == (s, Fail(DirRequired))
    ensures r.0.faults == s.faults
    ensures r.0.dirs - {dir} == s.dirs - {dir}
    ensures r.1.Pass? <==> dir != "" && ListOp(dir) !in s.faults && (dir in s.dirs ==> RemoveDirOp(dir) !in s.faults)
    ensures r.1.Pass? ==> dir !in r.0.dirs
    ensures dir in r.0.dirs ==> dir in s.dirs && forall e :: e in r.0.dirs[dir] ==> e in s.dirs[dir]
  {
    if dir == "" then (s, Fail(DirRequired))
    else
      match ReadDir(s, dir)
      case Failure(NotFound) => (s, Pass)
      case Failure(e) => (s, Fail(ListFailed(e)))
      case Success(entries) =>
        var s1 := RemoveFiles(s, dir, entries);
        match RemoveDir(s1, dir)
        case Failure(e) => (s1, Fail(RemoveDirFailed(e)))
        case Success(s2) => (s2, Pass)
  }

  /** After a successful delete, reading the directory yields no files. */
  lemma DeleteThenGet(s: Server, dir: string)
    requires Delete(s, dir).1.Pass?
    ensures Get(Delete(s, dir).0, dir) == Success([])
  {
    assert GetDir(dir) == dir;
  }

  /** Deleting again after a successful delete succeeds and changes nothing. */
  lemma DeleteIdempotent(s: Server, dir: string)
    requires Delete(s, dir).1.Pass?
    ensures Delete(Delete(s, dir).0, dir) == (Delete(s, dir).0, Pass)
  {
  }
}

=== FILE: webdav_server.dfy ===
/**
  The remote WebDAV store, seen through the requests the Go client issues
  (PROPFIND listing, GET, MKCOL, PUT, DELETE). Each collection is a sequence of
  children in the order the server lists them; a child is a file with content
  or a nested collection whose own contents are not modelled. Which requests
  the server refuses (authentication, permissions, network trouble) is part of
  the state: a request in `faults` fails, every other one succeeds.
 */
module WebDavServer {
  import opened Wrappers

  /** One child of a collection as a listing reports it. */
  datatype Entry = FileEntry(name: string, content: string) | DirEntry(name: string)

  /** A request the server may refuse. */
  datatype Op =
    | ListOp(dir: string)
    | ReadOp(dir: string, name: string)
    | MkdirOp(dir: string)
    | WriteOp(dir: string, name: string)
    | RemoveOp(dir: string, name: string)
    | RemoveDirOp(dir: string)

  /** Why a request failed: the path is absent, a file write hit a collection, or the server refused. */
  datatype Fault = NotFound | Conflict | Refused(op: Op)

  datatype Server = Server(dirs: map<string, seq<Entry>>, faults: set<Op>)

  predicate UniqueNames(es: seq<Entry>) {
    forall i, j :: 0 <= i < j < |es| ==> es[i].name != es[j].name
  }

  /** A well-formed store never lists two children of one collection under the same name. */
  predicate Valid(s: Server) {
    forall d :: d in s.dirs ==> UniqueNames(s.dirs[d])
  }

  function Names(es: seq<Entry>): set<string> {
    set e | e in es :: e.name
  }

  /** The names of a non-empty listing are its head's name and its tail's names. */
  lemma NamesCons(es: seq<Entry>)
    requires |es| > 0
    ensures Names(es) == {es[0].name} + Names(es[1..])
  {
    assert es == [es[0]] + es[1..];
  }

  /** A listing has unique names exactly when its tail does and the head's name is not among the tail's. */
  lemma UniqueCons(e: Entry, tail: seq<Entry>)
    ensures UniqueNames([e] + tail) <==> e.name !in Names(tail) && UniqueNames(tail)
  {
    var es := [e] + tail;
    assert es[1..] == tail;
    if e.name !in Names(tail) && UniqueNames(tail) {
      forall i, j | 0 <= i < j < |es|
        ensures es[i].name != es[j].name
      {
        if i == 0 {
          assert es[j] in tail;
        } else {
          assert es[i] == tail[i - 1] && es[j] == tail[j - 1];
        }
      }
    }
    if UniqueNames(es) {
      forall f | f in tail
        ensures f.name != e.name
      {
        var k :| 0 <= k < |tail| && tail[k] == f;
        assert es[0] == e && es[k + 1] == f;
      }
    }
  }

  /** The children of `d`, or none when the collection does not exist. */
  function Children(s: Server, d: string): seq<Entry> {
    if d in s.dirs then s.dirs[d] else []
  }

  /** The first child called `name`. */
  function Lookup(es: seq<Entry>, name: string): (r: Option<Entry>)
    ensures r.Some? ==> r.value in es && r.value.name == name
    ensures r.None? <==> name !in Names(es)
  {
    if |es| == 0 then None
    else if es[0].name == name then Some(es[0])
    else
      NamesCons(es);
      Lookup(es[1..], name)
  }

  /** In a collection without duplicate names, a lookup finds the listed child itself. */
  lemma {:induction false} LookupUnique(es: seq<Entry>, e: Entry)
    requires UniqueNames(es) && e in es
    ensures Lookup(es, e.name) == Some(e)
  {
    if es[0] != e {
      assert e in es[1..];
      LookupUnique(es[1..], e);
    }
  }

  /** Replace the child called `name` by a file, or append the file when there is none. */
  function Upsert(es: seq<Entry>, name: string, content: string): (r: seq<Entry>)
    ensures UpsertedFrom(es, name, content, r)
  {
    if |es| == 0 then
      [FileEntry(name, content)]
    else if es[0].name == name then
      var r := [FileEntry(name, content)] + es[1..];
      UpsertHere(es, name, content);
      r
    else
      var tail := Upsert(es[1..], name, content);
      UpsertLater(es, name, content, tail);
      [es[0]] + tail
  }

  /** What an upsert promises: `name` now looks up the new file, every other name as before, and names stay unique. */
  ghost predicate UpsertedFrom(es: seq<Entry>, name: string, content: string, r: seq<Entry>) {
    && (forall n :: Lookup(r, n) == if n == name then Some(FileEntry(name, content)) else Lookup(es, n))
    && Names(r) == Names(es) + {name}
    && (UniqueNames(es) ==> UniqueNames(r))
  }

  lemma UpsertHere(es: seq<Entry>, name: string, content: string)
    requires |es| > 0 && es[0].name == name
    ensures UpsertedFrom(es, name, content, [FileEntry(name, content)] + es[1..])
  {
    var r := [FileEntry(name, content)] + es[1..];
    assert r[1..] == es[1..];
    NamesCons(es);
    NamesCons(r);
    assert es == [es[0]] + es[1..];
    UniqueCons(es[0], es[1..]);
    UniqueCons(FileEntry(name, content), es[1..]);
  }

  lemma UpsertLater(es: seq<Entry>, name: string, content: string, tail: seq<Entry>)
    requires |es| > 0 && es[0].name != name
    requires UpsertedFrom(es[1..], name, content, tail)
    ensures UpsertedFrom(es, name, content, [es[0]] + tail)
  {
    var r := [es[0]] + tail;
    assert r[1..] == tail;
    NamesCons(es);
    NamesCons(r);
    assert es == [es[0]] + es[1..];
    UniqueCons(es[0], es[1..]);
    UniqueCons(es[0], tail);
  }

  /** Whether the child called `name` is a nested collection. */
  predicate IsCollection(es: seq<Entry>, name: string) {
    match Lookup(es, name)
    case Some(DirEntry(_)) => true
    case _ => false
  }

  /** Drop every child called `name`. */
  function RemoveName(es: seq<Entry>, name: string): (r: seq<Entry>)
    ensures forall e :: e in r <==> e in es && e.name != name
    ensures UniqueNames(es) ==> UniqueNames(r)
  {
    if |es| == 0 then []
    else
      var tail := RemoveName(es[1..], name);
      if es[0].name == name then tail
      else
        var r := [es[0]] + tail;
        assert UniqueNames(es) ==> forall e :: e in tail ==> e.name != es[0].name;
        r
  }

  /** PROPFIND with depth 1: the children of `dir`. */
  function ReadDir(s: Server, dir: string): Result<seq<Entry>, Fault> {
    if ListOp(dir) in s.faults then Failure(Refused(ListOp(dir)))
    else if dir !in s.dirs then Failure(NotFound)
    else Success(s.dirs[dir])
  }

  /** GET of the file `dir/name`. */
  function Read(s: Server, dir: string, name: string): Result<string, Fault> {
    if ReadOp(dir, name) in s.faults then Failure(Refused(ReadOp(dir, name)))
    else
      match Lookup(Children(s, dir), name)
      case Some(FileEntry(_, content)) => Success(content)
      case _ => Failure(NotFound)
  }

  /** MKCOL of `dir` unless it already exists. */
  function MkdirAll(s: Server, dir: string): (r: Result<Server, Fault>)
    ensures r.Success? <==> MkdirOp(dir) !in s.faults
    ensures r.Success? ==> dir in r.value.dirs && r.value.faults == s.faults
    ensures r.Success? ==> r.value.dirs - {dir} == s.dirs - {dir} && Children(r.value, dir) == Children(s, dir)
    ensures r.Success? && Valid(s) ==> Valid(r.value)
  {
    if MkdirOp(dir) in s.faults then Failure(Refused(MkdirOp(dir)))
    else if dir in s.dirs then Success(s)
    else Success(s.(dirs := s.dirs[dir := []]))
  }

  /** PUT of `content` at `dir/name`, overwriting a file of that name in place. */
  function Write(s: Server, dir: string, name: string, content: string): (r: Result<Server, Fault>)
    ensures r.Success? <==> WriteOp(dir, name) !in s.faults && !IsCollection(Children(s, dir), name)
    ensures r.Success? ==> dir in r.value.dirs && r.value.faults == s.faults && r.value.dirs - {dir} == s.dirs - {dir}
    ensures r.Success? ==> forall n ::
      Lookup(Children(r.value, dir), n) == (if n == name then Some(FileEntry(name, content)) else Lookup(Children(s, dir), n))
    ensures r.Success? && Valid(s) ==> Valid(r.value)
  {
    if WriteOp(dir, name) in s.faults then Failure(Refused(WriteOp(dir, name)))
    else
      match Lookup(Children(s, dir), name)
      case Some(DirEntry(_)) => Failure(Conflict)
      case _ => Success(s.(dirs := s.dirs[dir := Upsert(Children(s, dir), name, content)]))
  }

  /** DELETE of the file `dir/name`; deleting something absent succeeds. */
  function Remove(s: Server, dir: string, name: string): (r: Result<Server, Fault>)
    ensures r.Success? <==> RemoveOp(dir, name) !in s.faults
    ensures r.Success? ==> r.value.faults == s.faults && r.value.dirs.Keys == s.dirs.Keys && r.value.dirs - {dir} == s.dirs - {dir}
    ensures r.Success? && dir in s.dirs ==> forall e :: e in r.value.dirs[dir] <==> e in s.dirs[dir] && e.name != name
    ensures r.Success? && Valid(s) ==> Valid(r.value)
  {
    if RemoveOp(dir, name) in s.faults then Failure(Refused(RemoveOp(dir, name)))
    else if dir !in s.dirs then Success(s)
    else Success(s.(dirs := s.dirs[dir := RemoveName(s.dirs[dir], name)]))
  }

  /** DELETE of the collection `dir` with everything in it. */
  function RemoveDir(s: Server, dir: string): (r: Result<Server, Fault>)
    ensures r.Success? <==> RemoveDirOp(dir) !in s.faults
    ensures r.Success? ==> dir !in r.value.dirs && r.value.faults == s.faults && r.value.dirs - {dir} == s.dirs - {dir}
  {
    if RemoveDirOp(dir) in s.faults then Failure(Refused(RemoveDirOp(dir)))
    else Success(s.(dirs := s.dirs - {dir}))
  }
}

=== FILE: wrappers.dfy ===
/** Failure-carrying datatypes shared by every layer of the model. */
module Wrappers {

  /** A value that may be absent; `None` also stands for JavaScript's `undefined`. */
  datatype Option<+T> = None | Some(value: T) {

    function GetOr(default: T): T {
      match this
      case Some(v) => v
      case None => default
    }
  }

  /** The outcome of a fallible computation that produces a value. */
  datatype Result<+R, +E> = Success(value: R) | Failure(error: E)

  /** The outcome of a fallible computation that produces no value. */
  datatype Outcome<+E> = Pass | Fail(error: E)
}
